=== FILE: README.md ===
# Matchday add-on core, modelled in Dafny

This project models the data layer of the Matchday media add-on. The add-on browses a remote sports-data server: competitions, teams and events (generic highlight shows or matches), and the video sources of an event. The server speaks hypermedia JSON: every resource carries `_links` (name → `{href}`), and collections carry `_embedded.<kind>` arrays, in the layout of draft-kelly-json-hal, sections 4.1.1 and 4.1.2.

The model covers:

- **Entity builders** (`Competitions`, `Teams`, `Events`). These are pure projections of JSON records into immutable values, with Python's exception behaviour modelled as `Result`: KeyError for a missing key, TypeError for subscripting a non-object, AttributeError for `.get` on a non-object. An event becomes a `Match` exactly when its record has a `homeTeam` key. The date falls back to "now" only when reading or parsing it raises TypeError. The date parser is a parameter that receives the raw `date` value, whereas the code hands dateutil `"{}".format(value)`, which is always a string. dateutil raises TypeError only for non-string input, so with the code's parser the fallback happens only for a record that cannot be subscripted by a string key; a parser parameter that never yields `ParseTypeError` models exactly that.
- **Video-source list** (`VideoSources`). It reads the server's preferred URL and parses the variants. It then ranks them with a stable descending sort by resolution, the way Python's `list.sort(key=..., reverse=True)` does. The ranking is proved sorted, a permutation, stable, and unique. The preferred source and a variant chosen by (Python-style, possibly negative) index are downloaded through an abstract fetcher. A failed download yields None instead of raising.
- **JSON objects as dicts** (`Json`). `json.loads` fills a dict member by member, so a key that occurs twice in a document holds its last value, at the position where the key first occurred. `Json.Lookup` reads the last value, and `Json.Dict` is the dict itself, proved to have distinct keys and to agree with `Lookup` on every key. Iteration (`for k in d`, `d.items()`) walks `Dict`.
- **Playlist** (`Playlists`). The entries of the `_links` dict are split into the `master` entry and the ordered list of the other entries. This is a loop with invariants, proved against reference definitions and a partition count.
- **Server** (`Servers`). It covers base-URL normalisation, the root document, the three top-level collections, featured events, and relationship reads. Relationship reads follow only an entity's own `links[rel]['href']`. The collection reads are proved against reference readers of the hypermedia layout (`Hal.LinkHref`, `Hal.Embedded`, `Hal.EmbeddedArray`). A collection read succeeds only when the whole path is present: root fetched, `_links.<kind>.href` present, linked document fetched, `_embedded.<kind>` present.
- **Repositories** (`Repositories`). These are caches of competitions, teams and events, written as immutable values. Each operation returns the repository as it stands afterwards together with its result. Competitions and teams are fetched at most once; events are always refetched. Lookup by id is a first-match linear scan that returns None when nothing matches.

Supporting modules: `Wrappers` (Option/Result), `Json` (the JSON value, Python's dict/list access semantics, `list(map(...))`, and the dict `json.loads` builds), `Hal` (reference readers of `_links` and `_embedded`), `Http` (the abstract GET-and-decode). HTTP, JSON decoding, date parsing and the clock are parameters: a `Fetcher` (`string -> Option<Json>`), a date parser (`Json -> DateParse`) and an instant `now`, bundled as `Servers.Env`. The constructors of `Competition`, `Team`, `Event` and `Match` are Dafny datatype constructors, so they store their arguments unchanged by construction.

Where the code and the documented intent differ, the model follows the code:
- An unparseable date string makes dateutil raise ParserError, a ValueError. The builder fails; it does not fall back to "now". The fallback happens only for a parser TypeError, or when the record is not an object. In the second case the next `.get` raises AttributeError anyway.
- Collections are read only as `_embedded.<kind>`. There is no fallback to a bare `<kind>` key and no pagination cursor.
- `get_variant_source` with an out-of-range index raises IndexError. A negative index counts from the end.
- `download_video_source` returns None on failure. The server reads (`get_json`) raise.

## Model

| member | source | states |
|---|---|---|
| Json.Lookup | resources/lib/model/competition.py:52-54 | a key is found iff some member has it, and the value found is that of the last member with the key, as in the dict `json.loads` builds |
| Json.Dict | resources/lib/model/playlist.py:41 | the dict `json.loads` makes of an object has distinct keys and holds, for every key, the value `Lookup` reads from the raw members |
| Json.DictOfDistinctKeys | resources/lib/model/playlist.py:41 | an object whose members already have distinct keys is its own dict, in the same order |
| Json.PutLookup | resources/lib/model/playlist.py:41 | storing into a dict keeps the keys distinct, stores the value under its key and leaves every other key alone |
| Json.PutAt | resources/lib/model/playlist.py:41 | storing under a key the dict already holds replaces the value at that key's position and moves nothing |
| Json.DictExtendNew | resources/lib/model/playlist.py:41 | reading one more member with a new key appends it at the end of the dict |
| Json.DictExtendRepeated | resources/lib/model/playlist.py:41 | reading one more member with a key already present gives it the new value at its first position, so dict order is the order in which keys first occur |
| Json.Iterate | resources/lib/model/server.py:75 | iteration succeeds exactly for lists, dicts and strings: a list yields its items, a dict its keys in dict order, a string its characters; anything else raises TypeError |
| Json.MapAll | resources/lib/model/server.py:75 | `list(map(f, xs))` succeeds iff every element converts; then it has one result per element, in order, result i = f(xs[i]); otherwise it raises the exception of the first failing element |
| Json.PyIndex | resources/lib/model/videosourcelist.py:127 | list indexing succeeds exactly for -len <= i < len and raises IndexError otherwise |
| Json.PyIndexNegative | resources/lib/model/playlist.py:28 | a non-negative index is the ordinary position, and index i - len names the same element as i |
| Competitions.BuildCompetition | resources/lib/model/competition.py:46-55 | succeeds iff the record is an object with `id`, `name`, `abbreviation` and `_links`, and then copies those four values unchanged; a non-object raises TypeError, otherwise the first missing key in reading order raises KeyError |
| Competitions.CompetitionRoundTrip | resources/lib/model/competition.py:40-55 | building from the record of a competition returns that competition, and a built competition agrees with its source record on all four keys |
| Competitions.Str | resources/lib/model/competition.py:57-58 | `str()` is the name when the name is a string, TypeError otherwise |
| Competitions.StrOfBuilt | resources/lib/model/competition.py:53-58 | the display string of a built competition is the record's `name` string |
| Teams.BuildTeam | resources/lib/model/team.py:45-52 | succeeds iff the record is an object with `id`, a `name` object with its own `name`, and `_links`; then team_id = id, name = name.name, links = _links; a non-object record or a non-object `name` raises TypeError, and otherwise the first missing key in reading order (`id`, `name`, the inner `name`, `_links`) raises KeyError |
| Teams.TeamRoundTrip | resources/lib/model/team.py:40-52 | building from the record of a team (with the nested name) returns that team; a built team agrees with its record on id, name.name and _links |
| Teams.Str | resources/lib/model/team.py:54-55 | `str()` is the name when it is a string, TypeError otherwise |
| Teams.StrOfBuilt | resources/lib/model/team.py:52-55 | the display string of a built team is the record's nested `name.name` string |
| Events.EventDate | resources/lib/model/event.py:81-85 | the parsed instant when parsing succeeds; `now` only when parsing raises TypeError or the record is not subscriptable; a missing `date` key raises KeyError and a parser ValueError propagates |
| Events.BuildInfo | resources/lib/model/event.py:87-95 | succeeds iff the record is an object with a parseable date whose competition sub-record builds; event_id, title, fixture, season and links are the `get` values (null when absent), and competition is the competition built from the sub-record; a competition sub-record that fails to build (for instance `None` when the key is absent, which raises TypeError) passes its exception on |
| Events.BuildPairing | resources/lib/model/event.py:97-103 | yields teams iff the record has `homeTeam`; then home = the team built from `homeTeam` and away = the team built from `awayTeam`, a missing `awayTeam` raises KeyError, and a failing home or away team build passes its exception on, home first |
| Events.BuildEvent | resources/lib/model/event.py:74-106 | the result is a Match iff the record has a `homeTeam` key, and a base Event otherwise; it carries the shared fields of BuildInfo, and for a Match the two built teams; it fails iff the shared fields or a required team fail, with the shared fields' exception first and then the team's |
| Events.MatchExtendsEvent | resources/lib/model/event.py:109-119 | a record with `homeTeam` that builds yields a Match, and that Match has exactly the base fields of the Event built from the same record with `homeTeam` removed |
| Events.Str | resources/lib/model/event.py:71-72 | `str()` of an event is its title when that is a string, TypeError otherwise |
| Playlists.CreatePlaylist | resources/lib/model/playlist.py:30-46 | succeeds iff `_links` exists and is an object; master is the resource's `_links.master` link (None when absent), and variants are all other values of the `_links` dict in dict order; the TypeError, KeyError and AttributeError cases are given |
| Playlists.LastMasterIsLookup | resources/lib/model/playlist.py:41-43 | the master a front-to-back scan keeps is the value a lookup of `master` finds, None when absent |
| Playlists.PartitionCount | resources/lib/model/playlist.py:41-45 | every link lands in master or in variants: number of variants + number of `master` entries = number of links |
| Playlists.MasterIsLinkEntry | resources/lib/model/playlist.py:38-46 | with a dict's distinct keys, `master` occurs at most once and the link values are exactly the master plus the variants (as multisets) |
| Playlists.MasterUrl | resources/lib/model/playlist.py:15-20 | `master['href']`; without a master it raises TypeError |
| Playlists.MasterUrlIsHalLink | resources/lib/model/playlist.py:15-46 | for a playlist built from any resource whose `_links` is an object, repeated keys included, the master URL is the resource's `_links.master.href`, and the dict's values are exactly the master plus the variants |
| Playlists.VariantUrl | resources/lib/model/playlist.py:22-28 | `variants[i]['href']` for -len <= i < len (negative from the end), IndexError otherwise |
| VideoSources.Rank | resources/lib/model/videosourcelist.py:107-108 | the ranked list has the same elements (as a multiset) and is ordered by non-increasing resolution |
| VideoSources.RankIsStable | resources/lib/model/videosourcelist.py:108 | variants of equal resolution keep their input order |
| VideoSources.StableRankingIsUnique | resources/lib/model/videosourcelist.py:108 | any stably sorted arrangement of the parsed variants is exactly the ranked list |
| VideoSources.PreferredUrl | resources/lib/model/videosourcelist.py:102 | the subscript chain `_links.preferred.href` yields exactly the resource's `_links.preferred.href` link |
| VideoSources.ParsedVariants | resources/lib/model/videosourcelist.py:103-106 | succeeds only if `_embedded['video-sources']` exists and is iterable; then the variants are its elements parsed in order; TypeError for a non-object resource, a non-object `_embedded` or a non-iterable value; KeyError for a missing `_embedded` or `video-sources` |
| VideoSources.BuildVideoSourceList | resources/lib/model/videosourcelist.py:101-108 | succeeds iff the preferred link exists and `_embedded['video-sources']` is present, iterable and every element parses, so a resource without the embedded array raises rather than building an empty list; a failing step propagates its exception, the preferred link read first; the preferred URL is `_links.preferred.href`; the variants are a stable descending ranking and a permutation of the parsed records, as many as the `video-sources` array |
| VideoSources.TopRankedFirst | resources/lib/model/videosourcelist.py:108 | in a built list, the first variant has a resolution at least that of every parsed variant |
| VideoSources.DownloadVideoSource | resources/lib/model/videosourcelist.py:144-157 | the fetched document, or None when the GET or the decoding fails; it never raises |
| VideoSources.GetPreferredSource | resources/lib/model/videosourcelist.py:114-120 | a string preferred URL yields exactly the fetcher's answer for it; any other value reaches no server and yields None |
| VideoSources.PreferredIgnoresRanking | resources/lib/model/videosourcelist.py:114-120 | the preferred source is the download of the resource's `_links.preferred.href`, whatever the variants are |
| VideoSources.GetVariantSource | resources/lib/model/videosourcelist.py:122-128 | downloads `variants[idx].stream_url` for -len <= idx < len (negative from the end); IndexError otherwise |
| VideoSources.DefaultVariantIsBest | resources/lib/model/videosourcelist.py:122-128 | the default index 0 downloads a parsed variant of the highest resolution |
| Servers.NormaliseAddress | resources/lib/model/server.py:41-43 | the result has an `http://` or `https://` prefix and ends with the address; an address that already has one is kept, otherwise `http://` is prepended |
| Servers.NormaliseIdempotent | resources/lib/model/server.py:42-43 | normalising twice is normalising once |
| Servers.NewServer | resources/lib/model/server.py:36-46 | the base URL is the normalised address, `:`, and the port |
| Servers.GetJson | resources/lib/model/server.py:48-54 | the fetched document, and FetchError when the fetch or decoding fails |
| Servers.GetRoots | resources/lib/model/server.py:56-63 | the `_links` member of the document at base URL + `/`; FetchError when that fetch fails |
| Servers.CollectionUrl | resources/lib/model/server.py:71 | `roots.get(kind)['href']` succeeds iff roots is an object whose `kind` entry has an `href`, and returns that href |
| Servers.ReadCollection | resources/lib/model/server.py:73-75 | succeeds only if the document at the URL was fetched and has `_embedded.<kind>`; when that is an array, the result is the array mapped element-wise through the builder; FetchError when the fetch fails, KeyError for a missing `_embedded`, TypeError when `_embedded.<kind>` is not iterable |
| Servers.GetAll | resources/lib/model/server.py:65-99 | succeeds only if the root was fetched, links `kind`, the linked document was fetched and embeds `kind`; then the records of `_embedded.<kind>`, mapped element-wise through the builder; FetchError when the root fetch or the GET of the linked collection fails, KeyError when the root has no `_links` |
| Servers.GetAllEvents | resources/lib/model/server.py:65-75 | succeeds only along the whole `events` path, and FetchError when the root or the linked collection cannot be fetched; then the linked `events` records, each built with `create_event` |
| Servers.GetAllCompetitions | resources/lib/model/server.py:77-87 | succeeds only along the whole `competitions` path, and FetchError when the root or the linked collection cannot be fetched; then the linked `competitions` records, each built with `create_competition` |
| Servers.GetAllTeams | resources/lib/model/server.py:89-99 | succeeds only along the whole `teams` path, and FetchError when the root or the linked collection cannot be fetched; then the linked `teams` records, each built with `create_team` |
| Servers.CollectionScenario | resources/lib/model/server.py:77-87 | when every linked competition record builds, there is one competition per record, with matching id and name |
| Servers.GetFeaturedEvents | resources/lib/model/server.py:101-108 | succeeds only if the root was fetched and has `featuredEvents._embedded.events`; then those records, each built with `create_event`; FetchError when the root fetch fails, KeyError when it has no `featuredEvents` |
| Servers.GetRelated | resources/lib/model/server.py:110-144 | reads the collection at the entity's own `links[rel]['href']`; fails when that link is missing |
| Servers.GetTeamsByCompetition | resources/lib/model/server.py:110-120 | the teams collection at the competition's `links['teams']['href']` |
| Servers.GetEventsByCompetition | resources/lib/model/server.py:122-132 | the events collection at the competition's `links['events']['href']` |
| Servers.GetEventsByTeam | resources/lib/model/server.py:134-144 | the events collection at the team's `links['events']['href']` |
| Servers.RelatedUsesOwnLink | resources/lib/model/server.py:116-119 | a relationship read depends only on the document at the entity's own link: not on the base URL, and not on any other URL |
| Servers.GetPlaylist | resources/lib/model/server.py:146-153 | the fetched document unchanged, FetchError on failure |
| Repositories.FindFirst | resources/lib/model/repository.py:96-100 | None iff no element matches; otherwise the element at the first matching position |
| Repositories.GetAllEventsAsWritten | resources/lib/model/repository.py:76-88 | the as-written event read: it passes `url` to the server and keeps the cache on failure |
| Repositories.EventsAsWrittenNeverLoad | resources/lib/model/repository.py:80 | as written, every event read raises TypeError and leaves the repository unchanged |
| Repositories.GetAllEvents | resources/lib/model/repository.py:82-88 | always asks the server, whatever is cached; on success the cache becomes the new list, and on failure it is unchanged |
| Repositories.EventsAlwaysRefetched | resources/lib/model/repository.py:82-88 | the result does not depend on the cached events, and a successful read leaves the server's list in the cache |
| Repositories.GetEventById | resources/lib/model/repository.py:90-100 | the first cached event with that event_id, None iff none has it; an unfilled cache raises TypeError |
| Repositories.GetAllCompetitions | resources/lib/model/repository.py:112-126 | serves the cache when filled; otherwise fetches, and caches on success |
| Repositories.CompetitionsFetchedOnce | resources/lib/model/repository.py:118-126 | after a successful read, reading again returns the same list and state, whatever the network does |
| Repositories.GetCompetitionById | resources/lib/model/repository.py:128-138 | fills the cache first; the first competition with that comp_id, None iff none has it |
| Repositories.WithCompetition | resources/lib/model/repository.py:146-149 | a found competition is passed on unchanged; a missing one raises AttributeError (`None.links`) |
| Repositories.LogCompetition | resources/lib/model/repository.py:147-148 | formatting the found competition for the log line passes it on unchanged, except that a competition whose name is not a string raises TypeError |
| Repositories.GetEventsByCompetitionId | resources/lib/model/repository.py:140-150 | a failed competition load propagates its exception; AttributeError when no competition has that id; TypeError when the found competition's name is not a string; otherwise the server's events for exactly the competition found |
| Repositories.GetTeamsByCompetitionId | resources/lib/model/repository.py:152-159 | a failed competition load propagates its exception; AttributeError when no competition has that id; otherwise the server's teams for exactly the competition found |
| Repositories.GetAllTeamsAsWritten | resources/lib/model/repository.py:171-186 | the as-written team read: it serves the cache when filled, and otherwise passes `url` to the server |
| Repositories.TeamsAsWrittenNeverLoad | resources/lib/model/repository.py:176 | as written, a read with an empty cache raises TypeError and leaves the cache empty |
| Repositories.GetAllTeams | resources/lib/model/repository.py:178-186 | serves the cache when filled; otherwise fetches, and caches on success |
| Repositories.TeamsFetchedOnce | resources/lib/model/repository.py:178-186 | after a successful read, reading again returns the same list and state, whatever the network does |
| Repositories.TeamsFixLoads | resources/lib/model/repository.py:176-186 | with an empty cache and an answering server, the corrected read fills the cache where the as-written read raises |
| Repositories.FindTeamById | resources/lib/model/repository.py:188-191 | the first cached team with that team_id, None iff none has it; an unfilled cache raises TypeError |
| Repositories.FetchPlaylist | resources/lib/model/repository.py:203-212 | the playlist built from the document at the URL: FetchError when the fetch fails, otherwise master and variants as `create_playlist` splits that document's `_links` |

## Findings

| source | as written | input that shows it | evidently intended | confidence | as-written member | corrected member |
|---|---|---|---|---|---|---|
| resources/lib/model/repository.py:80 | `self.server.get_all_events(url)`, but `Server.get_all_events` takes no argument besides `self` | any call, e.g. `get_all_events()` with the default `url=None` | call the server without the cursor and cache the events | high (not executed) | Repositories.GetAllEventsAsWritten | Repositories.GetAllEvents |
| resources/lib/model/repository.py:176 | `self.server.get_all_teams(url)`, but `Server.get_all_teams` takes no argument besides `self` | the first `get_all_teams()`, while the cache is still None | call the server without the cursor and cache the teams | high (not executed) | Repositories.GetAllTeamsAsWritten | Repositories.GetAllTeams |

## Left out

- HTTP and JSON decoding (`requests.get`, `json.loads`): an abstract `Fetcher` that returns the decoded document or None. HTTP status codes and the kinds of failure are not distinguished. A URL that is not a JSON string is treated as a failed request.
- The add-on settings read by `Server.__init__`: address and port are parameters.
- `notification` and `xbmc.log` calls: the calls themselves are side effects with no bearing on results and are left out. Formatting their arguments is kept where it can raise: the log line of `get_events_by_competition_id` calls `str()` on the competition (`Repositories.LogCompetition`). The other formatted values are ids, URLs and decoded JSON values, whose formatting cannot raise.
- `dateutil.parser.parse` applied to the formatted date, and `datetime.now()`: a parser parameter and one `now` instant per `Servers.Env`, shared by every event built in one read, where the code calls `datetime.now()` once per event.
- `VideoSource.parse_video_resource` is not part of this model. It is a parser parameter yielding a record with an integer `resolution` and a `stream_url`, and the other variant metadata is not modelled.
- Pagination cursors: the server reads take none, and no paging is invented.
- `VideoSourceList.__str__` and the unused `PlaylistRepository.playlists` field: presentation and dead state.
- Floating-point JSON numbers: numbers are integers.
- Repositories.GetEventById: ids are compared with structural equality of JSON values. Python's cross-type equality (`True == 1`, `1 == 1.0`) is not modelled, and two objects that differ only in member order or in repeated keys compare unequal, where Python's dict equality (`{"a": 1, "b": 2} == {"b": 2, "a": 1}`) holds.
- Repositories.GetCompetitionById: same equality simplification as GetEventById.
- Repositories.FindTeamById: same equality simplification as GetEventById.
- Mutable repository objects and module-level singletons: modelled as values passed from call to call.
- GUI routing, list-item rendering, logging adapter and entry point (kodirouting.py, kodilogging.py, main.py): outside the data layer.

=== FILE: competitions.dfy ===
/** A competition (sports league) and its factory from a JSON record. */
module Competitions {
  import opened Wrappers
  import opened Json

  /** The constructor keeps each argument as given: nothing is converted or checked. */
  datatype Competition = Competition(compId: Json, name: Json, abbreviation: Json, links: Json)

  /**
    `create_competition`: project `id`, `name`, `abbreviation` and `_links`.
    A record that is not an object raises TypeError; otherwise the first
    missing key, in reading order, raises KeyError.
   */
  function BuildCompetition(d: Json): (r: Result<Competition, Error>)
    ensures r.Success? <==>
      d.JObj? && HasKey(d, "id") && HasKey(d, "name") && HasKey(d, "abbreviation") && HasKey(d, "_links")
    ensures r.Success? ==>
      r.value == Competition(Member(d, "id").value, Member(d, "name").value,
                             Member(d, "abbreviation").value, Member(d, "_links").value)
    ensures !d.JObj? ==> r == Failure(TypeError)
    ensures d.JObj? && !HasKey(d, "id") ==> r == Failure(KeyError("id"))
    ensures d.JObj? && HasKey(d, "id") && !HasKey(d, "name") ==> r == Failure(KeyError("name"))
    ensures d.JObj? && HasKey(d, "id") && HasKey(d, "name") && !HasKey(d, "abbreviation") ==>
      r == Failure(KeyError("abbreviation"))
    ensures d.JObj? && HasKey(d, "id") && HasKey(d, "name") && HasKey(d, "abbreviation") && !HasKey(d, "_links") ==>
      r == Failure(KeyError("_links"))
  {
    var id :- Index(d, "id");
    var name :- Index(d, "name");
    var abbreviation :- Index(d, "abbreviation");
    var links :- Index(d, "_links");
    Success(Competition(id, name, abbreviation, links))
  }

  /** The smallest record that `create_competition` turns into `c`. */
  function CompetitionJson(c: Competition): Json {
    JObj([("id", c.compId), ("name", c.name), ("abbreviation", c.abbreviation), ("_links", c.links)])
  }

  /** Building from the record of a competition gives that competition back, and a built competition agrees with its record on every field read. */
  lemma CompetitionRoundTrip(c: Competition, d: Json)
    ensures BuildCompetition(CompetitionJson(c)) == Success(c)
    ensures BuildCompetition(d) == Success(c) ==>
      && Member(d, "id") == Member(CompetitionJson(c), "id")
      && Member(d, "name") == Member(CompetitionJson(c), "name")
      && Member(d, "abbreviation") == Member(CompetitionJson(c), "abbreviation")
      && Member(d, "_links") == Member(CompetitionJson(c), "_links")
  {
    var ms := CompetitionJson(c).members;
    assert UniqueKeys(ms);
    LookupDistinct(ms, 0);
    LookupDistinct(ms, 1);
    LookupDistinct(ms, 2);
    LookupDistinct(ms, 3);
  }

  /** `__str__`: the name; Python raises TypeError when `__str__` returns a non-string. */
  function Str(c: Competition): (r: Result<string, Error>)
    ensures r.Success? <==> c.name.JStr?
    ensures r.Success? ==> JStr(r.value) == c.name
    ensures r.Failure? ==> r.error == TypeError
  {
    if c.name.JStr? then Success(c.name.s) else Failure(TypeError)
  }

  /** The display string of a built competition is the record's `name` string. */
  lemma StrOfBuilt(d: Json, name: string)
    requires BuildCompetition(d).Success?
    requires Member(d, "name") == Some(JStr(name))
    ensures Str(BuildCompetition(d).value) == Success(name)
  {
  }
}

=== FILE: events.dfy ===
/** Sporting events: a generic event (highlight show) or a match between two teams. */
module Events {
  import opened Wrappers
  import opened Json
  import opened Competitions
  import opened Teams

  /** A point in time, as produced by the date parser or the clock. */
  datatype Instant = Instant(ticks: int)

  /**
    What parsing the formatted `date` value does: yield an instant, raise
    TypeError (the one exception the factory catches), or raise anything else
    (dateutil's ParserError, a ValueError).
   */
  datatype DateParse = Parsed(at: Instant) | ParseTypeError | ParseValueError

  /** The fields every event carries. */
  datatype EventInfo = EventInfo(
    eventId: Json, date: Instant, title: Json, competition: Competition,
    fixture: Json, season: Json, links: Json)

  /** `Event` is the base class; `Match` adds the two teams to the same base fields. */
  datatype Event =
    | Event(info: EventInfo)
    | Match(info: EventInfo, homeTeam: Team, awayTeam: Team)

  /**
    The date step of `create_event`. Subscripting a record that is not an
    object raises TypeError inside the `try`, so it falls back to `now` as a
    parser TypeError does; a missing `date` key raises KeyError, which is not
    caught.
   */
  function EventDate(d: Json, parseDate: Json -> DateParse, now: Instant): (r: Result<Instant, Error>)
    ensures !d.JObj? ==> r == Success(now)
    ensures d.JObj? && !HasKey(d, "date") ==> r == Failure(KeyError("date"))
    ensures HasKey(d, "date") ==>
      r == match parseDate(Member(d, "date").value)
           case Parsed(t) => Success(t)
           case ParseTypeError => Success(now)
           case ParseValueError => Failure(ValueError)
  {
    match Index(d, "date")
    case Failure(TypeError) => Success(now)
    case Failure(e) => Failure(e)
    case Success(raw) =>
      match parseDate(raw)
      case Parsed(t) => Success(t)
      case ParseTypeError => Success(now)
      case ParseValueError => Failure(ValueError)
  }

  /** The shared fields of `create_event`, read in the source's order. */
  function BuildInfo(d: Json, parseDate: Json -> DateParse, now: Instant): (r: Result<EventInfo, Error>)
    ensures r.Success? <==>
      && d.JObj?
      && HasKey(d, "date")
      && !parseDate(Member(d, "date").value).ParseValueError?
      && BuildCompetition(MemberOrNull(d, "competition")).Success?
    ensures r.Success? ==>
      && r.value.eventId == MemberOrNull(d, "eventId")
      && r.value.title == MemberOrNull(d, "title")
      && r.value.competition == BuildCompetition(MemberOrNull(d, "competition")).value
      && r.value.fixture == MemberOrNull(d, "fixture")
      && r.value.season == MemberOrNull(d, "season")
      && r.value.links == MemberOrNull(d, "_links")
    ensures r.Success? ==>
      r.value.date == (match parseDate(Member(d, "date").value)
                       case Parsed(t) => t
                       case _ => now)
    ensures !d.JObj? ==> r == Failure(AttributeError)
    ensures d.JObj? && !HasKey(d, "date") ==> r == Failure(KeyError("date"))
    ensures HasKey(d, "date") && parseDate(Member(d, "date").value).ParseValueError? ==> r == Failure(ValueError)
    ensures d.JObj? && HasKey(d, "date") && !parseDate(Member(d, "date").value).ParseValueError?
            && BuildCompetition(MemberOrNull(d, "competition")).Failure? ==>
      r == Failure(BuildCompetition(MemberOrNull(d, "competition")).error)
  {
    var date :- EventDate(d, parseDate, now);
    // The first `get` raises on a non-object; after it, every `get` succeeds.
    var eventId :- Get(d, "eventId");
    var competition :- BuildCompetition(MemberOrNull(d, "competition"));
    Success(EventInfo(eventId, date, MemberOrNull(d, "title"), competition,
                      MemberOrNull(d, "fixture"), MemberOrNull(d, "season"), MemberOrNull(d, "_links")))
  }

  /** When a record asks for a Match, both its team records build. */
  predicate TeamsBuild(d: Json) {
    HasKey(d, "homeTeam") ==>
      && BuildTeam(Member(d, "homeTeam").value).Success?
      && HasKey(d, "awayTeam")
      && BuildTeam(Member(d, "awayTeam").value).Success?
  }

  /**
    The Match discrimination: no teams without a `homeTeam` key; with one,
    the home team, then `awayTeam` (whose absence raises KeyError), then the
    away team.
   */
  function BuildPairing(d: Json): (r: Result<Option<(Team, Team)>, Error>)
    ensures r.Success? <==> TeamsBuild(d)
    ensures r.Success? ==> (r.value.Some? <==> HasKey(d, "homeTeam"))
    ensures r.Success? && r.value.Some? ==>
      r.value.value == (BuildTeam(Member(d, "homeTeam").value).value,
                        BuildTeam(Member(d, "awayTeam").value).value)
    ensures HasKey(d, "homeTeam") && BuildTeam(Member(d, "homeTeam").value).Success? && !HasKey(d, "awayTeam") ==>
      r == Failure(KeyError("awayTeam"))
    ensures HasKey(d, "homeTeam") && BuildTeam(Member(d, "homeTeam").value).Failure? ==>
      r == Failure(BuildTeam(Member(d, "homeTeam").value).error)
    ensures HasKey(d, "homeTeam") && BuildTeam(Member(d, "homeTeam").value).Success? && HasKey(d, "awayTeam")
            && BuildTeam(Member(d, "awayTeam").value).Failure? ==>
      r == Failure(BuildTeam(Member(d, "awayTeam").value).error)
  {
    if HasKey(d, "homeTeam") then
      var home :- BuildTeam(Member(d, "homeTeam").value);
      var awayData :- Index(d, "awayTeam");
      var away :- BuildTeam(awayData);
      Success(Some((home, away)))
    else
      Success(None)
  }

  /**
    `create_event`: the shared fields, then a Match exactly when the record
    has a `homeTeam` key, with both teams built from their sub-records;
    otherwise a generic Event.
   */
  function BuildEvent(d: Json, parseDate: Json -> DateParse, now: Instant): (r: Result<Event, Error>)
    ensures r.Success? <==> BuildInfo(d, parseDate, now).Success? && TeamsBuild(d)
    ensures r.Success? ==> r.value.info == BuildInfo(d, parseDate, now).value
    ensures r.Success? ==> (r.value.Match? <==> HasKey(d, "homeTeam"))
    ensures r.Success? && r.value.Match? ==>
      && r.value.homeTeam == BuildTeam(Member(d, "homeTeam").value).value
      && r.value.awayTeam == BuildTeam(Member(d, "awayTeam").value).value
    ensures BuildInfo(d, parseDate, now).Failure? ==> r == Failure(BuildInfo(d, parseDate, now).error)
    ensures BuildInfo(d, parseDate, now).Success? && BuildPairing(d).Failure? ==> r == Failure(BuildPairing(d).error)
  {
    var info :- BuildInfo(d, parseDate, now);
    var pairing :- BuildPairing(d);
    match pairing
    case Some((home, away)) => Success(Match(info, home, away))
    case None => Success(Event(info))
  }

  /**
    A Match carries exactly the base fields of the Event built from the same
    record without its `homeTeam` key.
   */
  lemma MatchExtendsEvent(members: seq<(string, Json)>, parseDate: Json -> DateParse, now: Instant)
    requires HasKey(JObj(members), "homeTeam")
    ensures var r := BuildEvent(JObj(members), parseDate, now);
      r.Success? ==>
        && r.value.Match?
        && BuildEvent(JObj(Without(members, "homeTeam")), parseDate, now) == Success(Event(r.value.info))
  {
    var d := JObj(members);
    var e := JObj(Without(members, "homeTeam"));
    LookupWithout(members, "homeTeam", "homeTeam");
    LookupWithout(members, "homeTeam", "date");
    LookupWithout(members, "homeTeam", "eventId");
    LookupWithout(members, "homeTeam", "title");
    LookupWithout(members, "homeTeam", "competition");
    LookupWithout(members, "homeTeam", "fixture");
    LookupWithout(members, "homeTeam", "season");
    LookupWithout(members, "homeTeam", "_links");
    assert BuildInfo(e, parseDate, now) == BuildInfo(d, parseDate, now);
    assert !HasKey(e, "homeTeam");
  }

  /** `__str__`: the title; a non-string title makes `str()` raise TypeError. */
  function Str(e: Event): (r: Result<string, Error>)
    ensures r.Success? <==> e.info.title.JStr?
    ensures r.Success? ==> JStr(r.value) == e.info.title
    ensures r.Failure? ==> r.error == TypeError
  {
    if e.info.title.JStr? then Success(e.info.title.s) else Failure(TypeError)
  }
}

=== FILE: hal.dfy ===
/**
  The hypertext-application-language layout of the server's documents
  (draft-kelly-json-hal, section 4.1.1 for `_links` and section 4.1.2 for
  `_embedded`), read directly from the JSON tree. These readers are the
  reference the navigation code is proved against.
 */
module Hal {
  import opened Wrappers
  import opened Json

  /** The link object `_links.<rel>` of a resource, when present. */
  function Link(doc: Json, rel: string): Option<Json> {
    var links :- Member(doc, "_links");
    Member(links, rel)
  }

  /** `_links.<rel>.href` of a resource, when every step is present. */
  function LinkHref(doc: Json, rel: string): Option<Json> {
    var link :- Link(doc, rel);
    Member(link, "href")
  }

  /** The embedded value `_embedded.<kind>` of a collection resource, when present. */
  function Embedded(doc: Json, kind: string): Option<Json> {
    var embedded :- Member(doc, "_embedded");
    Member(embedded, kind)
  }

  /** The array `_embedded.<kind>` of a collection resource, when present and an array. */
  function EmbeddedArray(doc: Json, kind: string): Option<seq<Json>> {
    var items :- Embedded(doc, kind);
    if items.JArr? then Some(items.items) else None
  }
}

=== FILE: http.dfy ===
/**
  The network boundary. `requests.get` followed by `json.loads` is an
  abstract fetcher that either yields a decoded document or fails.
 */
module Http {
  import opened Wrappers
  import opened Json

  /** GET a URL and decode its body; None when the request or the decoding fails. */
  type Fetcher = string -> Option<Json>

  /**
    GET with a URL taken from a JSON document. `requests` rejects anything
    but a string URL with an exception, so only strings reach the fetcher.
   */
  function Get(fetch: Fetcher, url: Json): (r: Option<Json>)
    ensures url.JStr? ==> r == fetch(url.s)
    ensures !url.JStr? ==> r == None
  {
    if url.JStr? then fetch(url.s) else None
  }
}

=== FILE: json.dfy ===
/**
  Decoded JSON values and the parts of Python's dict/list semantics that the
  add-on relies on when it reads them: subscripting (`d[k]`), `d.get(k)`,
  iteration, `list(map(f, xs))` and list indexing. Raised exceptions become
  `Failure(e)` with `e` naming the exception class.
 */
module Json {
  import opened Wrappers

  /** A decoded JSON document. Numbers are integers; object members keep their textual order. */
  datatype Json =
    | JNull
    | JBool(b: bool)
    | JNum(n: int)
    | JStr(s: string)
    | JArr(items: seq<Json>)
    | JObj(members: seq<(string, Json)>)

  /** The Python exceptions the core can raise. `FetchError` stands for any failure of an HTTP GET or of JSON decoding. */
  datatype Error =
    | KeyError(key: string)
    | TypeError
    | AttributeError
    | ValueError
    | IndexError
    | FetchError

  /** Distinct keys, as in a Python dict. */
  predicate UniqueKeys(members: seq<(string, Json)>) {
    forall i, j :: 0 <= i < j < |members| ==> members[i].0 != members[j].0
  }

  /**
    The value stored under `key`. Like `json.loads`, which fills a dict
    member by member, a key that occurs more than once holds its last value.
   */
  function Lookup(members: seq<(string, Json)>, key: string): (r: Option<Json>)
    ensures r.Some? <==> exists i :: 0 <= i < |members| && members[i].0 == key
    ensures r.Some? ==>
      exists i :: 0 <= i < |members| && members[i] == (key, r.value)
                  && forall j :: i < j < |members| ==> members[j].0 != key
  {
    if |members| == 0 then None
    else
      var rest := Lookup(members[1..], key);
      assert forall i :: 1 <= i < |members| ==> members[i] == members[1..][i - 1];
      if rest.Some? then rest
      else if members[0].0 == key then Some(members[0].1)
      else None
  }

  /** With distinct keys, every member is what a lookup of its key finds. */
  lemma LookupDistinct(members: seq<(string, Json)>, i: int)
    requires UniqueKeys(members) && 0 <= i < |members|
    ensures Lookup(members, members[i].0) == Some(members[i].1)
  {
  }

  /** Extending the members at the end: the new member wins for its own key and hides nothing else. */
  lemma {:induction false} LookupAppend(prefix: seq<(string, Json)>, m: (string, Json), key: string)
    ensures Lookup(prefix + [m], key) == if m.0 == key then Some(m.1) else Lookup(prefix, key)
  {
    if |prefix| > 0 {
      assert (prefix + [m])[1..] == prefix[1..] + [m];
      LookupAppend(prefix[1..], m, key);
    }
  }

  /** Python `d[key] = value` on a dict: an existing key keeps its position and takes the new value; a new key goes last. */
  function Put(members: seq<(string, Json)>, key: string, value: Json): seq<(string, Json)> {
    if |members| == 0 then [(key, value)]
    else if members[0].0 == key then [(key, value)] + members[1..]
    else [members[0]] + Put(members[1..], key, value)
  }

  /** On a dict, `Put` keeps the keys distinct, stores `value` under `key` and leaves every other key alone. */
  lemma {:induction false} PutLookup(members: seq<(string, Json)>, key: string, value: Json)
    requires UniqueKeys(members)
    ensures UniqueKeys(Put(members, key, value))
    ensures Lookup(Put(members, key, value), key) == Some(value)
    ensures forall k :: k != key ==> Lookup(Put(members, key, value), k) == Lookup(members, k)
  {
    if |members| > 0 {
      var tail := members[1..];
      assert UniqueKeys(tail);
      assert Lookup(tail, members[0].0) == None;
      if members[0].0 != key {
        PutLookup(tail, key, value);
        var p := Put(tail, key, value);
        assert Lookup(p, members[0].0) == None;
        assert Put(members, key, value)[1..] == p;
      } else {
        assert Put(members, key, value)[1..] == tail;
      }
    }
  }

  /** A key that a dict does not hold is added at the end. */
  lemma {:induction false} PutNewKey(members: seq<(string, Json)>, key: string, value: Json)
    requires Lookup(members, key) == None
    ensures Put(members, key, value) == members + [(key, value)]
  {
    if |members| > 0 {
      assert Lookup(members[1..], key) == None;
      PutNewKey(members[1..], key, value);
    }
  }

  /**
    The dict `json.loads` makes of an object's members: each key once, at the
    position where it first occurs, holding the value it last has. Iterating
    a decoded object walks these entries.
   */
  function Dict(members: seq<(string, Json)>): (r: seq<(string, Json)>)
    ensures UniqueKeys(r)
    ensures forall k :: Lookup(r, k) == Lookup(members, k)
  {
    if |members| == 0 then []
    else
      var n := |members| - 1;
      var prefix := Dict(members[..n]);
      PutLookup(prefix, members[n].0, members[n].1);
      assert members == members[..n] + [members[n]];
      forall k ensures Lookup(members, k) == if members[n].0 == k then Some(members[n].1) else Lookup(members[..n], k) {
        LookupAppend(members[..n], members[n], k);
      }
      Put(prefix, members[n].0, members[n].1)
  }

  /** In a dict, storing under a key it already holds keeps that key at its position. */
  lemma {:induction false} PutAt(members: seq<(string, Json)>, key: string, value: Json, i: int)
    requires UniqueKeys(members) && 0 <= i < |members| && members[i].0 == key
    ensures Put(members, key, value) == members[i := (key, value)]
  {
    if i > 0 {
      assert UniqueKeys(members[1..]);
      PutAt(members[1..], key, value, i - 1);
      assert members[i := (key, value)] == [members[0]] + members[1..][i - 1 := (key, value)];
    }
  }

  /** Reading one more member whose key is new appends it to the dict. */
  lemma DictExtendNew(prefix: seq<(string, Json)>, key: string, value: Json)
    requires Lookup(prefix, key).None?
    ensures Dict(prefix + [(key, value)]) == Dict(prefix) + [(key, value)]
  {
    assert (prefix + [(key, value)])[..|prefix|] == prefix;
    PutNewKey(Dict(prefix), key, value);
  }

  /** Reading one more member whose key the dict holds at `i` updates the value there and moves nothing. */
  lemma DictExtendRepeated(prefix: seq<(string, Json)>, key: string, value: Json, i: int)
    requires 0 <= i < |Dict(prefix)| && Dict(prefix)[i].0 == key
    ensures Dict(prefix + [(key, value)]) == Dict(prefix)[i := (key, value)]
  {
    assert (prefix + [(key, value)])[..|prefix|] == prefix;
    PutAt(Dict(prefix), key, value, i);
  }

  /** Members whose keys are already distinct make the dict unchanged, in the same order. */
  lemma {:induction false} DictOfDistinctKeys(members: seq<(string, Json)>)
    requires UniqueKeys(members)
    ensures Dict(members) == members
  {
    if |members| > 0 {
      var n := |members| - 1;
      assert UniqueKeys(members[..n]);
      DictOfDistinctKeys(members[..n]);
      assert Lookup(members[..n], members[n].0) == None;
      PutNewKey(members[..n], members[n].0, members[n].1);
      assert members == members[..n] + [members[n]];
    }
  }

  /** The member `key` of an object; None for a missing key or a value that is not an object. */
  function Member(j: Json, key: string): Option<Json> {
    if j.JObj? then Lookup(j.members, key) else None
  }

  /** Python `key in d` for a dict `d`. */
  predicate HasKey(j: Json, key: string) {
    Member(j, key).Some?
  }

  /** Python `d.get(key)` for a dict `d`: the member, or None (JSON null) when absent. */
  function MemberOrNull(j: Json, key: string): Json {
    Member(j, key).GetOr(JNull)
  }

  /** Python `j[key]` with a string key: KeyError on a dict without the key, TypeError on anything that is not a dict. */
  function Index(j: Json, key: string): (r: Result<Json, Error>)
    ensures r.Success? <==> HasKey(j, key)
    ensures r.Success? ==> r.value == Member(j, key).value
    ensures r.Failure? ==> r.error == (if j.JObj? then KeyError(key) else TypeError)
  {
    if !j.JObj? then Failure(TypeError)
    else match Lookup(j.members, key)
      case Some(v) => Success(v)
      case None => Failure(KeyError(key))
  }

  /** Python `j.get(key)`: only dicts have `get`. */
  function Get(j: Json, key: string): (r: Result<Json, Error>)
    ensures r.Success? <==> j.JObj?
    ensures r.Success? ==> r.value == MemberOrNull(j, key)
    ensures r.Failure? ==> r.error == AttributeError
  {
    if j.JObj? then Success(MemberOrNull(j, key)) else Failure(AttributeError)
  }

  /** Python `for x in j`: list elements, dict keys, or one-character strings; other values are not iterable. */
  function Iterate(j: Json): (r: Result<seq<Json>, Error>)
    ensures j.JArr? ==> r == Success(j.items)
    ensures r.Success? <==> (j.JArr? || j.JObj? || j.JStr?)
    ensures r.Failure? ==> r.error == TypeError
    ensures r.Success? && j.JObj? ==>
      && |r.value| == |Dict(j.members)|
      && forall i :: 0 <= i < |r.value| ==> r.value[i] == JStr(Dict(j.members)[i].0)
    ensures r.Success? && j.JStr? ==>
      && |r.value| == |j.s|
      && forall i :: 0 <= i < |r.value| ==> r.value[i] == JStr([j.s[i]])
  {
    match j
    case JArr(items) => Success(items)
    case JObj(members) =>
      var d := Dict(members);
      Success(seq(|d|, i requires 0 <= i < |d| => JStr(d[i].0)))
    case JStr(s) => Success(seq(|s|, i requires 0 <= i < |s| => JStr([s[i]])))
    case _ => Failure(TypeError)
  }

  /**
    Python `list(map(f, xs))`: every element in order; the first element
    whose conversion raises decides the exception.
   */
  function MapAll<A, B>(xs: seq<A>, f: A -> Result<B, Error>): (r: Result<seq<B>, Error>)
    ensures r.Success? <==> forall i :: 0 <= i < |xs| ==> f(xs[i]).Success?
    ensures r.Success? ==> |r.value| == |xs|
    ensures r.Success? ==> forall i :: 0 <= i < |xs| ==> r.value[i] == f(xs[i]).value
    ensures r.Failure? ==>
      exists i :: 0 <= i < |xs| && f(xs[i]) == Failure(r.error)
                  && forall k :: 0 <= k < i ==> f(xs[k]).Success?
  {
    if |xs| == 0 then Success([])
    else
      var y :- f(xs[0]);
      var rest := MapAll(xs[1..], f);
      assert forall i :: 1 <= i < |xs| ==> xs[i] == xs[1..][i - 1];
      if rest.Failure? then
        var i :| 0 <= i < |xs[1..]| && f(xs[1..][i]) == Failure(rest.error)
                 && forall k :: 0 <= k < i ==> f(xs[1..][k]).Success?;
        assert f(xs[i + 1]) == Failure(rest.error);
        Failure(rest.error)
      else
        Success([y] + rest.value)
  }

  /** Python `s[i]` on a list: negative indices count from the end; anything else out of range raises IndexError. */
  function PyIndex<T>(s: seq<T>, i: int): (r: Result<T, Error>)
    ensures r.Success? <==> -|s| <= i < |s|
    ensures r.Failure? ==> r.error == IndexError
  {
    if 0 <= i < |s| then Success(s[i])
    else if -|s| <= i < 0 then Success(s[|s| + i])
    else Failure(IndexError)
  }

  /** Index `i - |s|` names the same element as `i`, and a non-negative index is an ordinary position. */
  lemma PyIndexNegative<T>(s: seq<T>, i: int)
    requires 0 <= i < |s|
    ensures PyIndex(s, i) == Success(s[i])
    ensures PyIndex(s, i - |s|) == PyIndex(s, i)
  {
  }

  /** The members of an object with every `key` entry removed. */
  function Without(members: seq<(string, Json)>, key: string): seq<(string, Json)> {
    if |members| == 0 then []
    else if members[0].0 == key then Without(members[1..], key)
    else [members[0]] + Without(members[1..], key)
  }

  /** Removing `key` hides exactly that key and leaves every other lookup alone. */
  lemma {:induction false} LookupWithout(members: seq<(string, Json)>, key: string, other: string)
    ensures Lookup(Without(members, key), key) == None
    ensures other != key ==> Lookup(Without(members, key), other) == Lookup(members, other)
  {
    if |members| > 0 {
      LookupWithout(members[1..], key, other);
    }
  }
}

=== FILE: playlists.dfy ===
/** A video playlist set: one master (default) playlist link plus the variant playlist links. */
module Playlists {
  import opened Wrappers
  import opened Json
  import Hal

  /** `master` is None when the links have no `master` entry. */
  datatype Playlist = Playlist(master: Option<Json>, variants: seq<Json>)

  /** The key that designates the master playlist. */
  const MasterKey: string := "master"

  /** The master link a front-to-back scan leaves behind: the value of the last `master` member. */
  function LastMaster(members: seq<(string, Json)>): Option<Json> {
    if |members| == 0 then None
    else if members[|members| - 1].0 == MasterKey then Some(members[|members| - 1].1)
    else LastMaster(members[..|members| - 1])
  }

  /** The values of all non-master members, in member order. */
  function NonMasterValues(members: seq<(string, Json)>): seq<Json> {
    if |members| == 0 then []
    else
      NonMasterValues(members[..|members| - 1])
      + (if members[|members| - 1].0 == MasterKey then [] else [members[|members| - 1].1])
  }

  /** How many members carry `key`. */
  function CountKey(members: seq<(string, Json)>, key: string): nat {
    if |members| == 0 then 0
    else CountKey(members[..|members| - 1], key) + (if members[|members| - 1].0 == key then 1 else 0)
  }

  /** All member values, in member order. */
  function Values(members: seq<(string, Json)>): seq<Json> {
    if |members| == 0 then [] else Values(members[..|members| - 1]) + [members[|members| - 1].1]
  }

  /**
    `create_playlist`: walk the entries of the `_links` dict in order, keeping
    the `master` value aside and appending every other value to the variants.
   */
  method CreatePlaylist(d: Json) returns (r: Result<Playlist, Error>)
    ensures !d.JObj? ==> r == Failure(TypeError)
    ensures d.JObj? && !HasKey(d, "_links") ==> r == Failure(KeyError("_links"))
    ensures HasKey(d, "_links") && !Member(d, "_links").value.JObj? ==> r == Failure(AttributeError)
    ensures r.Success? <==> HasKey(d, "_links") && Member(d, "_links").value.JObj?
    ensures r.Success? ==>
      && r.value.master == LastMaster(Dict(Member(d, "_links").value.members))
      && r.value.variants == NonMasterValues(Dict(Member(d, "_links").value.members))
    ensures r.Success? ==> r.value.master == Hal.Link(d, MasterKey)
  {
    var links :- Index(d, "_links");
    if !links.JObj? {
      // `.items()` exists only on dicts
      return Failure(AttributeError);
    }
    var members := Dict(links.members);
    var master: Option<Json> := None;
    var variants: seq<Json> := [];
    var i := 0;
    while i < |members|
      invariant 0 <= i <= |members|
      invariant master == LastMaster(members[..i])
      invariant variants == NonMasterValues(members[..i])
    {
      assert members[..i + 1][..i] == members[..i];
      var (key, value) := members[i];
      if key == MasterKey {
        master := Some(value);
      } else {
        variants := variants + [value];
      }
      i := i + 1;
    }
    assert members[..|members|] == members;
    LastMasterIsLookup(members);
    return Success(Playlist(master, variants));
  }

  /** Every member is either the master or a variant: the variants are all members but the `master` ones. */
  lemma {:induction false} PartitionCount(members: seq<(string, Json)>)
    ensures |NonMasterValues(members)| + CountKey(members, MasterKey) == |members|
  {
    if |members| > 0 {
      PartitionCount(members[..|members| - 1]);
    }
  }

  /** The last `master` member is the one a lookup of `master` finds (None when absent). */
  lemma {:induction false} LastMasterIsLookup(members: seq<(string, Json)>)
    ensures LastMaster(members) == Lookup(members, MasterKey)
  {
    if |members| > 0 {
      var n := |members| - 1;
      LastMasterIsLookup(members[..n]);
      assert members == members[..n] + [members[n]];
      LookupAppend(members[..n], members[n], MasterKey);
    }
  }

  /**
    With the distinct keys of a dict, `master` occurs at most once and the
    values split exactly into the master and the variants.
   */
  lemma {:induction false} MasterIsLinkEntry(members: seq<(string, Json)>)
    requires UniqueKeys(members)
    ensures CountKey(members, MasterKey) == if Lookup(members, MasterKey).Some? then 1 else 0
    ensures multiset(Values(members))
            == multiset(NonMasterValues(members))
               + (if LastMaster(members).Some? then multiset{LastMaster(members).value} else multiset{})
  {
    if |members| > 0 {
      var n := |members| - 1;
      var prefix := members[..n];
      assert members == prefix + [members[n]];
      assert UniqueKeys(prefix);
      MasterIsLinkEntry(prefix);
      LastMasterIsLookup(prefix);
      LookupAppend(prefix, members[n], MasterKey);
    }
  }

  /** `get_master_url`: `master['href']`; with no master, subscripting None raises TypeError. */
  function MasterUrl(p: Playlist): (r: Result<Json, Error>)
    ensures p.master.None? ==> r == Failure(TypeError)
    ensures r.Success? <==> p.master.Some? && HasKey(p.master.value, "href")
    ensures r.Success? ==> r.value == Member(p.master.value, "href").value
  {
    if p.master.None? then Failure(TypeError) else Index(p.master.value, "href")
  }

  /**
    For the playlist of a resource whose links are a dict, the master URL is
    the resource's `_links.master.href`, and the master plus the variants are
    exactly the values of that dict.
   */
  lemma MasterUrlIsHalLink(d: Json, members: seq<(string, Json)>)
    requires Member(d, "_links") == Some(JObj(members))
    ensures MasterUrl(Playlist(LastMaster(Dict(members)), NonMasterValues(Dict(members)))).ToOption()
            == Hal.LinkHref(d, MasterKey)
    ensures multiset(Values(Dict(members)))
            == multiset(NonMasterValues(Dict(members)))
               + (if LastMaster(Dict(members)).Some? then multiset{LastMaster(Dict(members)).value} else multiset{})
  {
    LastMasterIsLookup(Dict(members));
    MasterIsLinkEntry(Dict(members));
  }

  /** `get_variant_url`: `variants[i]['href']`, with Python's negative indices. */
  function VariantUrl(p: Playlist, i: int): (r: Result<Json, Error>)
    ensures !(-|p.variants| <= i < |p.variants|) ==> r == Failure(IndexError)
    ensures 0 <= i < |p.variants| ==> r == Index(p.variants[i], "href")
    ensures -|p.variants| <= i < 0 ==> r == Index(p.variants[|p.variants| + i], "href")
  {
    var v :- PyIndex(p.variants, i);
    Index(v, "href")
  }
}

=== FILE: repositories.dfy ===
/**
  The local data stores. Each repository holds the server and a cache that
  is None until the first successful fetch. A repository is a value here:
  every operation returns the repository as it is afterwards together with
  its result. A fetch that raises leaves the cache as it was.
 */
module Repositories {
  import opened Wrappers
  import opened Json
  import opened Competitions
  import opened Teams
  import opened Events
  import opened Servers
  import Playlists

  datatype EventRepository = EventRepository(server: Server, events: Option<seq<Event>>)

  datatype CompetitionRepository = CompetitionRepository(server: Server, competitions: Option<seq<Competition>>)

  datatype TeamRepository = TeamRepository(server: Server, teams: Option<seq<Team>>)

  /** The linear scan of the lookups: the first element that matches, or None. */
  function FindFirst<T(==)>(xs: seq<T>, matches: T -> bool): (r: Option<T>)
    ensures r.None? <==> forall i :: 0 <= i < |xs| ==> !matches(xs[i])
    ensures r.Some? ==>
      exists i :: 0 <= i < |xs| && xs[i] == r.value && matches(xs[i])
                  && forall j :: 0 <= j < i ==> !matches(xs[j])
  {
    if |xs| == 0 then None
    else if matches(xs[0]) then Some(xs[0])
    else
      var r := FindFirst(xs[1..], matches);
      assert forall i :: 1 <= i < |xs| ==> xs[i] == xs[1..][i - 1];
      if r.Some? then
        var i :| 0 <= i < |xs[1..]| && xs[1..][i] == r.value && matches(xs[1..][i])
                 && forall j :: 0 <= j < i ==> !matches(xs[1..][j]);
        assert xs[i + 1] == r.value;
        r
      else r
  }

  // ----- Events -----

  /**
    `get_all_events` as written: it hands its `url` to `get_all_events` of
    the server, which takes no argument.
   */
  function GetAllEventsAsWritten(repo: EventRepository, url: Json, env: Env): (r: (EventRepository, Result<seq<Event>, Error>))
    ensures r.1.Failure? ==> r.0 == repo
    ensures r.1.Success? ==> r.0 == repo.(events := Some(r.1.value))
  {
    match GetAllEventsCall(repo.server, [url], env)
    case Success(events) => (repo.(events := Some(events)), Success(events))
    case Failure(e) => (repo, Failure(e))
  }

  /** As written, reading the events never succeeds and never fills the cache, whatever the server holds. */
  lemma EventsAsWrittenNeverLoad(repo: EventRepository, url: Json, env: Env)
    ensures GetAllEventsAsWritten(repo, url, env) == (repo, Failure(TypeError))
  {
  }

  /**
    `get_all_events` with the server called as it is declared: always fetch,
    never serve from the cache, and replace the cache on success.
   */
  function GetAllEvents(repo: EventRepository, env: Env): (r: (EventRepository, Result<seq<Event>, Error>))
    ensures r.1 == Servers.GetAllEvents(repo.server, env)
    ensures r.1.Success? ==> r.0 == repo.(events := Some(r.1.value))
    ensures r.1.Failure? ==> r.0 == repo
  {
    match GetAllEventsCall(repo.server, [], env)
    case Success(events) => (repo.(events := Some(events)), Success(events))
    case Failure(e) => (repo, Failure(e))
  }

  /** Whatever the cache held, reading the events gives what the server has now. */
  lemma EventsAlwaysRefetched(repo: EventRepository, cached: Option<seq<Event>>, env: Env)
    ensures GetAllEvents(repo.(events := cached), env).1 == GetAllEvents(repo, env).1
    ensures GetAllEvents(repo, env).1.Success? ==>
      GetAllEvents(repo, env).0.events == Some(Servers.GetAllEvents(repo.server, env).value)
  {
  }

  /** `get_event_by_id`: scan the cache; iterating an unfilled cache raises TypeError. */
  function GetEventById(repo: EventRepository, eventId: Json): (r: Result<Option<Event>, Error>)
    ensures repo.events.None? ==> r == Failure(TypeError)
    ensures repo.events.Some? ==> r.Success?
    ensures repo.events.Some? ==>
      (r.value.None? <==> forall i :: 0 <= i < |repo.events.value| ==> repo.events.value[i].info.eventId != eventId)
    ensures repo.events.Some? && r.value.Some? ==>
      exists i :: 0 <= i < |repo.events.value| && repo.events.value[i] == r.value.value
                  && r.value.value.info.eventId == eventId
                  && forall j :: 0 <= j < i ==> repo.events.value[j].info.eventId != eventId
  {
    if repo.events.None? then Failure(TypeError)
    else Success(FindFirst(repo.events.value, (e: Event) => e.info.eventId == eventId))
  }

  // ----- Competitions -----

  /** `get_all_competitions`: fetch only while the cache is empty. */
  function GetAllCompetitions(repo: CompetitionRepository, env: Env): (r: (CompetitionRepository, Result<seq<Competition>, Error>))
    ensures repo.competitions.Some? ==> r == (repo, Success(repo.competitions.value))
    ensures repo.competitions.None? ==> r.1 == Servers.GetAllCompetitions(repo.server, env)
    ensures r.1.Success? ==> r.0 == repo.(competitions := Some(r.1.value))
    ensures r.1.Failure? ==> r.0 == repo
  {
    if repo.competitions.Some? then (repo, Success(repo.competitions.value))
    else
      match Servers.GetAllCompetitions(repo.server, env)
      case Success(cs) => (repo.(competitions := Some(cs)), Success(cs))
      case Failure(e) => (repo, Failure(e))
  }

  /**
    Competitions are fetched at most once: after a successful read, reading
    again returns the same list, leaves the repository alone and does not
    depend on the network at all.
   */
  lemma CompetitionsFetchedOnce(repo: CompetitionRepository, env: Env, later: Env)
    requires GetAllCompetitions(repo, env).1.Success?
    ensures GetAllCompetitions(GetAllCompetitions(repo, env).0, later) == GetAllCompetitions(repo, env)
  {
  }

  /** `get_competition_by_id`: fill the cache if needed, then take the first competition with that id. */
  function GetCompetitionById(repo: CompetitionRepository, compId: Json, env: Env): (r: (CompetitionRepository, Result<Option<Competition>, Error>))
    ensures r.0 == GetAllCompetitions(repo, env).0
    ensures GetAllCompetitions(repo, env).1.Failure? ==> r.1 == Failure(GetAllCompetitions(repo, env).1.error)
    ensures GetAllCompetitions(repo, env).1.Success? ==> r.1.Success?
    ensures GetAllCompetitions(repo, env).1.Success? ==>
      var cs := GetAllCompetitions(repo, env).1.value;
      && (r.1.value.None? <==> forall i :: 0 <= i < |cs| ==> cs[i].compId != compId)
      && (r.1.value.Some? ==>
            exists i :: 0 <= i < |cs| && cs[i] == r.1.value.value && cs[i].compId == compId
                        && forall j :: 0 <= j < i ==> cs[j].compId != compId)
  {
    var (filled, all) := GetAllCompetitions(repo, env);
    match all
    case Failure(e) => (filled, Failure(e))
    case Success(cs) => (filled, Success(FindFirst(cs, (c: Competition) => c.compId == compId)))
  }

  /**
    The competition a relationship read starts from: the one found by id;
    an id that is not there leaves None, whose `links` do not exist.
   */
  function WithCompetition<T>(found: Result<Option<Competition>, Error>, read: Competition -> Result<T, Error>): (r: Result<T, Error>)
    ensures found.Failure? ==> r == Failure(found.error)
    ensures found == Success(None) ==> r == Failure(AttributeError)
    ensures found.Success? && found.value.Some? ==> r == read(found.value.value)
  {
    match found
    case Failure(e) => Failure(e)
    case Success(None) => Failure(AttributeError)
    case Success(Some(c)) => read(c)
  }

  /**
    The log line written before the events are read formats the competition
    found with `str()`: None formats as "None", but a competition whose name
    is not a string raises TypeError there.
   */
  function LogCompetition(found: Result<Option<Competition>, Error>): (r: Result<Option<Competition>, Error>)
    ensures found.Failure? || found == Success(None) ==> r == found
    ensures found.Success? && found.value.Some? ==>
      (r == found <==> Competitions.Str(found.value.value).Success?)
    ensures r != found ==> r == Failure(TypeError)
  {
    match found
    case Success(Some(c)) => if Competitions.Str(c).Failure? then Failure(TypeError) else found
    case _ => found
  }

  /** `get_events_by_competition_id`: the events linked from the competition with that id. */
  function GetEventsByCompetitionId(repo: CompetitionRepository, compId: Json, env: Env): (r: (CompetitionRepository, Result<seq<Event>, Error>))
    ensures r.0 == GetCompetitionById(repo, compId, env).0
    ensures GetCompetitionById(repo, compId, env).1.Failure? ==>
      r.1 == Failure(GetCompetitionById(repo, compId, env).1.error)
    ensures GetCompetitionById(repo, compId, env).1 == Success(None) ==> r.1 == Failure(AttributeError)
    ensures GetCompetitionById(repo, compId, env).1.Success? && GetCompetitionById(repo, compId, env).1.value.Some? ==>
      var c := GetCompetitionById(repo, compId, env).1.value.value;
      && (Competitions.Str(c).Failure? ==> r.1 == Failure(TypeError))
      && (Competitions.Str(c).Success? ==> r.1 == Servers.GetEventsByCompetition(repo.server, c, env))
  {
    var (filled, found) := GetCompetitionById(repo, compId, env);
    (filled, WithCompetition(LogCompetition(found), (c: Competition) => Servers.GetEventsByCompetition(filled.server, c, env)))
  }

  /** `get_teams_by_competition_id`: the teams linked from the competition with that id. */
  function GetTeamsByCompetitionId(repo: CompetitionRepository, compId: Json, env: Env): (r: (CompetitionRepository, Result<seq<Team>, Error>))
    ensures r.0 == GetCompetitionById(repo, compId, env).0
    ensures GetCompetitionById(repo, compId, env).1.Failure? ==>
      r.1 == Failure(GetCompetitionById(repo, compId, env).1.error)
    ensures GetCompetitionById(repo, compId, env).1 == Success(None) ==> r.1 == Failure(AttributeError)
    ensures GetCompetitionById(repo, compId, env).1.Success? && GetCompetitionById(repo, compId, env).1.value.Some? ==>
      r.1 == Servers.GetTeamsByCompetition(repo.server, GetCompetitionById(repo, compId, env).1.value.value, env)
  {
    var (filled, found) := GetCompetitionById(repo, compId, env);
    (filled, WithCompetition(found, (c: Competition) => Servers.GetTeamsByCompetition(filled.server, c, env)))
  }

  // ----- Teams -----

  /**
    `get_all_teams` as written: with an empty cache it hands its `url` to
    `get_all_teams` of the server, which takes no argument.
   */
  function GetAllTeamsAsWritten(repo: TeamRepository, url: Json, env: Env): (r: (TeamRepository, Result<seq<Team>, Error>))
    ensures repo.teams.Some? ==> r == (repo, Success(repo.teams.value))
    ensures r.1.Failure? ==> r.0 == repo
  {
    if repo.teams.Some? then (repo, Success(repo.teams.value))
    else
      match GetAllTeamsCall(repo.server, [url], env)
      case Success(ts) => (repo.(teams := Some(ts)), Success(ts))
      case Failure(e) => (repo, Failure(e))
  }

  /** As written, an empty team cache is never filled: every read raises TypeError. */
  lemma TeamsAsWrittenNeverLoad(repo: TeamRepository, url: Json, env: Env)
    requires repo.teams.None?
    ensures GetAllTeamsAsWritten(repo, url, env) == (repo, Failure(TypeError))
  {
  }

  /** `get_all_teams` with the server called as it is declared: fetch only while the cache is empty. */
  function GetAllTeams(repo: TeamRepository, env: Env): (r: (TeamRepository, Result<seq<Team>, Error>))
    ensures repo.teams.Some? ==> r == (repo, Success(repo.teams.value))
    ensures repo.teams.None? ==> r.1 == Servers.GetAllTeams(repo.server, env)
    ensures r.1.Success? ==> r.0 == repo.(teams := Some(r.1.value))
    ensures r.1.Failure? ==> r.0 == repo
  {
    if repo.teams.Some? then (repo, Success(repo.teams.value))
    else
      match GetAllTeamsCall(repo.server, [], env)
      case Success(ts) => (repo.(teams := Some(ts)), Success(ts))
      case Failure(e) => (repo, Failure(e))
  }

  /** Teams are fetched at most once; once cached, the network (and, in the source, the `url`) has no effect. */
  lemma TeamsFetchedOnce(repo: TeamRepository, env: Env, later: Env)
    requires GetAllTeams(repo, env).1.Success?
    ensures GetAllTeams(GetAllTeams(repo, env).0, later) == GetAllTeams(repo, env)
  {
  }

  /** The fixed read succeeds exactly where the as-written one raised: with an empty cache and a server that answers. */
  lemma TeamsFixLoads(repo: TeamRepository, url: Json, env: Env)
    requires repo.teams.None?
    requires Servers.GetAllTeams(repo.server, env).Success?
    ensures GetAllTeams(repo, env).1.Success?
    ensures GetAllTeams(repo, env).0.teams == Some(Servers.GetAllTeams(repo.server, env).value)
    ensures GetAllTeamsAsWritten(repo, url, env).1 == Failure(TypeError)
  {
  }

  /** `__find_team_by_id`: the first cached team with that id, else None; an unfilled cache raises TypeError. */
  function FindTeamById(repo: TeamRepository, teamId: Json): (r: Result<Option<Team>, Error>)
    ensures repo.teams.None? ==> r == Failure(TypeError)
    ensures repo.teams.Some? ==> r.Success?
    ensures repo.teams.Some? ==>
      (r.value.None? <==> forall i :: 0 <= i < |repo.teams.value| ==> repo.teams.value[i].teamId != teamId)
    ensures repo.teams.Some? && r.value.Some? ==>
      exists i :: 0 <= i < |repo.teams.value| && repo.teams.value[i] == r.value.value
                  && r.value.value.teamId == teamId
                  && forall j :: 0 <= j < i ==> repo.teams.value[j].teamId != teamId
  {
    if repo.teams.None? then Failure(TypeError)
    else Success(FindFirst(repo.teams.value, (t: Team) => t.teamId == teamId))
  }

  // ----- Playlists -----

  /** `PlaylistRepository.fetch_playlist`: the playlist resource at `url`, split into master and variants. */
  method FetchPlaylist(server: Server, url: string, env: Env) returns (r: Result<Playlists.Playlist, Error>)
    ensures env.fetch(url).None? ==> r == Failure(FetchError)
    ensures r.Success? <==>
      env.fetch(url).Some? && HasKey(env.fetch(url).value, "_links")
      && Member(env.fetch(url).value, "_links").value.JObj?
    ensures r.Success? ==>
      var links := Dict(Member(env.fetch(url).value, "_links").value.members);
      r.value == Playlists.Playlist(Playlists.LastMaster(links), Playlists.NonMasterValues(links))
  {
    var doc :- Servers.GetPlaylist(server, url, env);
    r := Playlists.CreatePlaylist(doc);
  }
}

=== FILE: servers.dfy ===
/**
  The remote data server: the base URL built from the configured address and
  port, and the reads of the root document, the collections it links to, the
  featured events, and the collections an entity links to.
 */
module Servers {
  import opened Wrappers
  import opened Json
  import Hal
  import Http
  import opened Competitions
  import opened Teams
  import opened Events

  /** What the server reaches outside the add-on: the network, the date parser and the clock. */
  datatype Env = Env(fetch: Http.Fetcher, parseDate: Json -> DateParse, now: Instant)

  /** `url` is the base URL every root read starts from. */
  datatype Server = Server(url: string)

  /** The address already names a scheme: `^http[s]?://`. */
  predicate HasScheme(address: string) {
    "http://" <= address || "https://" <= address
  }

  /** The address with `http://` put in front unless it already starts with `http://` or `https://`. */
  function NormaliseAddress(address: string): (r: string)
    ensures HasScheme(r)
    ensures |address| <= |r| && r[|r| - |address|..] == address
    ensures HasScheme(address) ==> r == address
    ensures r != address ==> r == "http://" + address
  {
    if HasScheme(address) then address else "http://" + address
  }

  /** Normalising a normalised address changes nothing. */
  lemma NormaliseIdempotent(address: string)
    ensures NormaliseAddress(NormaliseAddress(address)) == NormaliseAddress(address)
  {
  }

  /** `Server.__init__` with the two settings passed in: `address:port`, the address normalised. */
  function NewServer(address: string, port: string): (s: Server)
    ensures HasScheme(s.url)
    ensures s.url == NormaliseAddress(address) + ":" + port
    ensures HasScheme(address) ==> s.url == address + ":" + port
    ensures !HasScheme(address) ==> s.url == "http://" + address + ":" + port
  {
    Server(NormaliseAddress(address) + ":" + port)
  }

  /** `get_json`: GET and decode; any failure raises. */
  function GetJson(env: Env, url: Json): (r: Result<Json, Error>)
    ensures r.ToOption() == Http.Get(env.fetch, url)
    ensures r.Failure? ==> r.error == FetchError
  {
    match Http.Get(env.fetch, url)
    case Some(doc) => Success(doc)
    case None => Failure(FetchError)
  }

  /** The URL of the root document. */
  function RootUrl(s: Server): string {
    s.url + "/"
  }

  /** `get_roots`: the `_links` member of the root document. */
  function GetRoots(s: Server, env: Env): (r: Result<Json, Error>)
    ensures env.fetch(RootUrl(s)).None? ==> r == Failure(FetchError)
    ensures r.Success? <==> env.fetch(RootUrl(s)).Some? && HasKey(env.fetch(RootUrl(s)).value, "_links")
    ensures r.Success? ==> Some(r.value) == Member(env.fetch(RootUrl(s)).value, "_links")
  {
    var root :- GetJson(env, JStr(RootUrl(s)));
    Index(root, "_links")
  }

  /** `roots.get(kind)['href']`. */
  function CollectionUrl(roots: Json, kind: string): (r: Result<Json, Error>)
    ensures r.Success? <==> roots.JObj? && HasKey(roots, kind) && HasKey(Member(roots, kind).value, "href")
    ensures r.Success? ==> Some(r.value) == Member(Member(roots, kind).value, "href")
  {
    var entry :- Get(roots, kind);
    Index(entry, "href")
  }

  /** The `_embedded.<kind>` records of the document at `url`, each turned into an entity by `build`. */
  function ReadCollection<T>(env: Env, url: Json, kind: string, build: Json -> Result<T, Error>): (r: Result<seq<T>, Error>)
    ensures Http.Get(env.fetch, url).None? ==> r == Failure(FetchError)
    ensures r.Success? ==>
      Http.Get(env.fetch, url).Some? && Hal.Embedded(Http.Get(env.fetch, url).value, kind).Some?
    ensures Http.Get(env.fetch, url).Some? && Http.Get(env.fetch, url).value.JObj?
            && !HasKey(Http.Get(env.fetch, url).value, "_embedded") ==>
      r == Failure(KeyError("_embedded"))
    ensures Http.Get(env.fetch, url).Some? && Hal.Embedded(Http.Get(env.fetch, url).value, kind).Some?
            && Iterate(Hal.Embedded(Http.Get(env.fetch, url).value, kind).value).Failure? ==>
      r == Failure(TypeError)
    ensures Http.Get(env.fetch, url).Some? && Hal.EmbeddedArray(Http.Get(env.fetch, url).value, kind).Some? ==>
      r == MapAll(Hal.EmbeddedArray(Http.Get(env.fetch, url).value, kind).value, build)
  {
    var doc :- GetJson(env, url);
    var embedded :- Index(doc, "_embedded");
    var records :- Index(embedded, kind);
    var items :- Iterate(records);
    MapAll(items, build)
  }

  /**
    The records of collection `kind` reached the hypermedia way: the root
    document's `_links.<kind>.href`, then that document's `_embedded.<kind>`.
   */
  function LinkedCollection(s: Server, env: Env, kind: string): Option<seq<Json>> {
    var doc :- LinkedDocument(s, env, kind);
    Hal.EmbeddedArray(doc, kind)
  }

  /** The document the root's `_links.<kind>.href` names, when every step is present and the GET succeeds. */
  function LinkedDocument(s: Server, env: Env, kind: string): Option<Json> {
    var root :- env.fetch(RootUrl(s));
    var href :- Hal.LinkHref(root, kind);
    Http.Get(env.fetch, href)
  }

  /**
    A collection read succeeds only along the whole hypermedia path: the root
    was fetched, it links `kind`, the linked document was fetched, and it
    embeds `kind`.
   */
  predicate PathPresent(s: Server, env: Env, kind: string) {
    LinkedDocument(s, env, kind).Some? && Hal.Embedded(LinkedDocument(s, env, kind).value, kind).Some?
  }

  /** The shared shape of `get_all_events`, `get_all_competitions` and `get_all_teams`. */
  function GetAll<T>(s: Server, env: Env, kind: string, build: Json -> Result<T, Error>): (r: Result<seq<T>, Error>)
    ensures env.fetch(RootUrl(s)).None? ==> r == Failure(FetchError)
    ensures env.fetch(RootUrl(s)).Some? && env.fetch(RootUrl(s)).value.JObj?
            && !HasKey(env.fetch(RootUrl(s)).value, "_links") ==>
      r == Failure(KeyError("_links"))
    ensures env.fetch(RootUrl(s)).Some? && Hal.LinkHref(env.fetch(RootUrl(s)).value, kind).Some?
            && LinkedDocument(s, env, kind).None? ==>
      r == Failure(FetchError)
    ensures r.Success? ==> PathPresent(s, env, kind)
    ensures LinkedCollection(s, env, kind).Some? ==> r == MapAll(LinkedCollection(s, env, kind).value, build)
  {
    var roots :- GetRoots(s, env);
    var url :- CollectionUrl(roots, kind);
    ReadCollection(env, url, kind, build)
  }

  /** `Event.create_event` with the environment's parser and clock. */
  function EventBuilder(env: Env): Json -> Result<Event, Error> {
    d => BuildEvent(d, env.parseDate, env.now)
  }

  /** `get_all_events`: one event per record of the linked `events` collection. */
  function GetAllEvents(s: Server, env: Env): (r: Result<seq<Event>, Error>)
    ensures env.fetch(RootUrl(s)).None? ==> r == Failure(FetchError)
    ensures env.fetch(RootUrl(s)).Some? && Hal.LinkHref(env.fetch(RootUrl(s)).value, "events").Some?
            && LinkedDocument(s, env, "events").None? ==>
      r == Failure(FetchError)
    ensures r.Success? ==> PathPresent(s, env, "events")
    ensures LinkedCollection(s, env, "events").Some? ==>
      r == MapAll(LinkedCollection(s, env, "events").value, EventBuilder(env))
  {
    GetAll(s, env, "events", EventBuilder(env))
  }

  /** `get_all_competitions`: one competition per record of the linked `competitions` collection. */
  function GetAllCompetitions(s: Server, env: Env): (r: Result<seq<Competition>, Error>)
    ensures env.fetch(RootUrl(s)).None? ==> r == Failure(FetchError)
    ensures env.fetch(RootUrl(s)).Some? && Hal.LinkHref(env.fetch(RootUrl(s)).value, "competitions").Some?
            && LinkedDocument(s, env, "competitions").None? ==>
      r == Failure(FetchError)
    ensures r.Success? ==> PathPresent(s, env, "competitions")
    ensures LinkedCollection(s, env, "competitions").Some? ==>
      r == MapAll(LinkedCollection(s, env, "competitions").value, BuildCompetition)
  {
    GetAll(s, env, "competitions", BuildCompetition)
  }

  /** `get_all_teams`: one team per record of the linked `teams` collection. */
  function GetAllTeams(s: Server, env: Env): (r: Result<seq<Team>, Error>)
    ensures env.fetch(RootUrl(s)).None? ==> r == Failure(FetchError)
    ensures env.fetch(RootUrl(s)).Some? && Hal.LinkHref(env.fetch(RootUrl(s)).value, "teams").Some?
            && LinkedDocument(s, env, "teams").None? ==>
      r == Failure(FetchError)
    ensures r.Success? ==> PathPresent(s, env, "teams")
    ensures LinkedCollection(s, env, "teams").Some? ==>
      r == MapAll(LinkedCollection(s, env, "teams").value, BuildTeam)
  {
    GetAll(s, env, "teams", BuildTeam)
  }

  /**
    Python checks the arity of a call: `get_all_events` and `get_all_teams`
    take no argument besides the server, so passing one raises TypeError.
    These two helpers exist only to model that TypeError for the repository
    reads; the contracts about it are on the repository members.
   */
  function GetAllEventsCall(s: Server, args: seq<Json>, env: Env): Result<seq<Event>, Error> {
    if |args| > 0 then Failure(TypeError) else GetAllEvents(s, env)
  }

  /** See `GetAllEventsCall`: only models the arity TypeError of `get_all_teams`. */
  function GetAllTeamsCall(s: Server, args: seq<Json>, env: Env): Result<seq<Team>, Error> {
    if |args| > 0 then Failure(TypeError) else GetAllTeams(s, env)
  }

  /** A fetched collection has one entity per record, entity `i` built from record `i`. */
  lemma CollectionScenario(s: Server, env: Env, recs: seq<Json>)
    requires LinkedCollection(s, env, "competitions") == Some(recs)
    requires forall i :: 0 <= i < |recs| ==> BuildCompetition(recs[i]).Success?
    ensures GetAllCompetitions(s, env).Success?
    ensures |GetAllCompetitions(s, env).value| == |recs|
    ensures forall i :: 0 <= i < |recs| ==>
      GetAllCompetitions(s, env).value[i].compId == Member(recs[i], "id").value
      && GetAllCompetitions(s, env).value[i].name == Member(recs[i], "name").value
  {
  }

  /** The value at `featuredEvents._embedded.events` of the root document, when every step is present. */
  function FeaturedRecords(s: Server, env: Env): Option<Json> {
    var root :- env.fetch(RootUrl(s));
    var featured :- Member(root, "featuredEvents");
    Hal.Embedded(featured, "events")
  }

  /** `get_featured_events`: the events under `featuredEvents._embedded.events` of the root document. */
  function GetFeaturedEvents(s: Server, env: Env): (r: Result<seq<Event>, Error>)
    ensures env.fetch(RootUrl(s)).None? ==> r == Failure(FetchError)
    ensures env.fetch(RootUrl(s)).Some? && env.fetch(RootUrl(s)).value.JObj?
            && !HasKey(env.fetch(RootUrl(s)).value, "featuredEvents") ==>
      r == Failure(KeyError("featuredEvents"))
    ensures r.Success? ==> FeaturedRecords(s, env).Some?
    ensures env.fetch(RootUrl(s)).Some? && Member(env.fetch(RootUrl(s)).value, "featuredEvents").Some?
            && Hal.EmbeddedArray(Member(env.fetch(RootUrl(s)).value, "featuredEvents").value, "events").Some? ==>
      r == MapAll(Hal.EmbeddedArray(Member(env.fetch(RootUrl(s)).value, "featuredEvents").value, "events").value,
                  EventBuilder(env))
  {
    var root :- GetJson(env, JStr(RootUrl(s)));
    var featured :- Index(root, "featuredEvents");
    var embedded :- Index(featured, "_embedded");
    var records :- Index(embedded, "events");
    var items :- Iterate(records);
    MapAll(items, EventBuilder(env))
  }

  /** An entity's own link: `links[rel]['href']`. */
  function RelationHref(links: Json, rel: string): Option<Json> {
    var link :- Member(links, rel);
    Member(link, "href")
  }

  /** Follow `links[rel]['href']` verbatim and read the `_embedded.<kind>` collection there. */
  function GetRelated<T>(links: Json, rel: string, env: Env, kind: string, build: Json -> Result<T, Error>): (r: Result<seq<T>, Error>)
    ensures RelationHref(links, rel).None? ==> r.Failure?
    ensures RelationHref(links, rel).Some? ==> r == ReadCollection(env, RelationHref(links, rel).value, kind, build)
  {
    var link :- Index(links, rel);
    var url :- Index(link, "href");
    ReadCollection(env, url, kind, build)
  }

  /** `get_teams_by_competition`. */
  function GetTeamsByCompetition(s: Server, c: Competition, env: Env): (r: Result<seq<Team>, Error>)
    ensures RelationHref(c.links, "teams").None? ==> r.Failure?
    ensures RelationHref(c.links, "teams").Some? ==>
      r == ReadCollection(env, RelationHref(c.links, "teams").value, "teams", BuildTeam)
  {
    GetRelated(c.links, "teams", env, "teams", BuildTeam)
  }

  /** `get_events_by_competition`. */
  function GetEventsByCompetition(s: Server, c: Competition, env: Env): (r: Result<seq<Event>, Error>)
    ensures RelationHref(c.links, "events").None? ==> r.Failure?
    ensures RelationHref(c.links, "events").Some? ==>
      r == ReadCollection(env, RelationHref(c.links, "events").value, "events", EventBuilder(env))
  {
    GetRelated(c.links, "events", env, "events", EventBuilder(env))
  }

  /** `get_events_by_team`. */
  function GetEventsByTeam(s: Server, t: Team, env: Env): (r: Result<seq<Event>, Error>)
    ensures RelationHref(t.links, "events").None? ==> r.Failure?
    ensures RelationHref(t.links, "events").Some? ==>
      r == ReadCollection(env, RelationHref(t.links, "events").value, "events", EventBuilder(env))
  {
    GetRelated(t.links, "events", env, "events", EventBuilder(env))
  }

  /**
    A relationship read depends on nothing but the document at the entity's
    own link: not on the server's base URL, and not on any other URL.
   */
  lemma RelatedUsesOwnLink(s1: Server, s2: Server, c: Competition, env: Env, fetch2: Http.Fetcher, url: string)
    requires RelationHref(c.links, "teams") == Some(JStr(url))
    requires fetch2(url) == env.fetch(url)
    ensures GetTeamsByCompetition(s2, c, env.(fetch := fetch2)) == GetTeamsByCompetition(s1, c, env)
  {
  }

  /** `get_playlist`: the document at `url`, unchanged. */
  function GetPlaylist(s: Server, url: string, env: Env): (r: Result<Json, Error>)
    ensures r.ToOption() == env.fetch(url)
    ensures r.Failure? ==> r.error == FetchError
  {
    GetJson(env, JStr(url))
  }
}

=== FILE: teams.dfy ===
/** A football team and its factory from a JSON record. */
module Teams {
  import opened Wrappers
  import opened Json

  /** The constructor keeps each argument as given. */
  datatype Team = Team(teamId: Json, name: Json, links: Json)

  /** The display name sits one level down, at `name.name`. */
  function NestedName(d: Json): Option<Json> {
    var outer :- Member(d, "name");
    Member(outer, "name")
  }

  /**
    `create_team`: `team_id = id`, `name = name.name`, `links = _links`, read
    in that order. A missing key raises KeyError; subscripting something that
    is not an object (the record, or its `name`) raises TypeError.
   */
  function BuildTeam(d: Json): (r: Result<Team, Error>)
    ensures r.Success? <==>
      d.JObj? && HasKey(d, "id") && NestedName(d).Some? && HasKey(d, "_links")
    ensures r.Success? ==>
      r.value == Team(Member(d, "id").value, NestedName(d).value, Member(d, "_links").value)
    ensures !d.JObj? ==> r == Failure(TypeError)
    ensures d.JObj? && !HasKey(d, "id") ==> r == Failure(KeyError("id"))
    ensures d.JObj? && HasKey(d, "id") && !HasKey(d, "name") ==> r == Failure(KeyError("name"))
    ensures d.JObj? && HasKey(d, "id") && HasKey(d, "name") && !Member(d, "name").value.JObj? ==>
      r == Failure(TypeError)
    ensures d.JObj? && HasKey(d, "id") && HasKey(d, "name") && Member(d, "name").value.JObj? && NestedName(d).None? ==>
      r == Failure(KeyError("name"))
    ensures d.JObj? && HasKey(d, "id") && NestedName(d).Some? && !HasKey(d, "_links") ==>
      r == Failure(KeyError("_links"))
  {
    var id :- Index(d, "id");
    var outer :- Index(d, "name");
    var name :- Index(outer, "name");
    var links :- Index(d, "_links");
    Success(Team(id, name, links))
  }

  /** The smallest record that `create_team` turns into `t`. */
  function TeamJson(t: Team): Json {
    JObj([("id", t.teamId), ("name", JObj([("name", t.name)])), ("_links", t.links)])
  }

  /** Building from the record of a team gives that team back, and a built team agrees with its record on `id`, `name.name` and `_links`. */
  lemma TeamRoundTrip(t: Team, d: Json)
    ensures BuildTeam(TeamJson(t)) == Success(t)
    ensures BuildTeam(d) == Success(t) ==>
      && Member(d, "id") == Member(TeamJson(t), "id")
      && NestedName(d) == NestedName(TeamJson(t))
      && Member(d, "_links") == Member(TeamJson(t), "_links")
  {
    var ms := TeamJson(t).members;
    assert UniqueKeys(ms);
    LookupDistinct(ms, 0);
    LookupDistinct(ms, 1);
    LookupDistinct(ms, 2);
    LookupDistinct([("name", t.name)], 0);
  }

  /** `__str__`: the name; a non-string name makes `str()` raise TypeError. */
  function Str(t: Team): (r: Result<string, Error>)
    ensures r.Success? <==> t.name.JStr?
    ensures r.Success? ==> JStr(r.value) == t.name
    ensures r.Failure? ==> r.error == TypeError
  {
    if t.name.JStr? then Success(t.name.s) else Failure(TypeError)
  }

  /** The display string of a built team is the record's nested `name.name` string. */
  lemma StrOfBuilt(d: Json, name: string)
    requires NestedName(d) == Some(JStr(name))
    ensures BuildTeam(d).Success? ==> Str(BuildTeam(d).value) == Success(name)
  {
  }
}

=== FILE: videosources.dfy ===
/**
  The list of video sources for an event: the server's preferred stream URL
  plus every variant, ranked best (highest resolution) first.
 */
module VideoSources {
  import opened Wrappers
  import opened Json
  import Hal
  import Http

  /**
    One parsed variant. Only the two fields the list uses are kept: the
    ranking key and the URL a selected variant is fetched from.
   */
  datatype VideoSource = VideoSource(resolution: int, streamUrl: Json)

  datatype VideoSourceList = VideoSourceList(preferredPlaylistUrl: Json, variants: seq<VideoSource>)

  /** Non-increasing resolution from front to back. */
  predicate SortedByResolution(s: seq<VideoSource>) {
    forall i, j :: 0 <= i < j < |s| ==> s[i].resolution >= s[j].resolution
  }

  /** The variants of one resolution, in their order in `s`. */
  function WithResolution(s: seq<VideoSource>, res: int): seq<VideoSource> {
    if |s| == 0 then []
    else (if s[0].resolution == res then [s[0]] else []) + WithResolution(s[1..], res)
  }

  /**
    `out` is `input` stably sorted by descending resolution: ordered, and
    every group of equal resolution keeps its input order.
   */
  ghost predicate StableRanking(out: seq<VideoSource>, input: seq<VideoSource>) {
    && SortedByResolution(out)
    && forall res :: WithResolution(out, res) == WithResolution(input, res)
  }

  /** Place `v` after every strictly better variant and before the rest. */
  function Insert(v: VideoSource, s: seq<VideoSource>): (r: seq<VideoSource>)
    ensures |r| == |s| + 1
    ensures multiset(r) == multiset(s) + multiset{v}
  {
    if |s| == 0 || s[0].resolution <= v.resolution then [v] + s
    else
      assert s == [s[0]] + s[1..];
      [s[0]] + Insert(v, s[1..])
  }

  /** Inserting into a ranked list keeps it ranked. */
  lemma {:induction false} InsertSorted(v: VideoSource, s: seq<VideoSource>)
    requires SortedByResolution(s)
    ensures SortedByResolution(Insert(v, s))
  {
    if |s| > 0 && s[0].resolution > v.resolution {
      InsertSorted(v, s[1..]);
      var rest := Insert(v, s[1..]);
      assert s == [s[0]] + s[1..];
      forall i | 0 <= i < |rest|
        ensures rest[i].resolution <= s[0].resolution
      {
        assert rest[i] in multiset(rest);
        if rest[i] != v {
          assert rest[i] in multiset(s[1..]);
          var k :| 0 <= k < |s[1..]| && s[1..][k] == rest[i];
          assert s[k + 1] == rest[i];
        }
      }
    }
  }

  /**
    `list.sort(key=resolution, reverse=True)`: Python's sort is stable, also
    in reverse, so equal resolutions keep their input order.
   */
  function Rank(s: seq<VideoSource>): (r: seq<VideoSource>)
    ensures |r| == |s|
    ensures multiset(r) == multiset(s)
    ensures SortedByResolution(r)
  {
    if |s| == 0 then []
    else
      assert s == [s[0]] + s[1..];
      InsertSorted(s[0], Rank(s[1..]));
      Insert(s[0], Rank(s[1..]))
  }

  /** Inserting `v` does not reorder any resolution group. */
  lemma {:induction false} InsertKeepsGroups(v: VideoSource, s: seq<VideoSource>, res: int)
    ensures WithResolution(Insert(v, s), res) == WithResolution([v] + s, res)
  {
    if |s| > 0 && s[0].resolution > v.resolution {
      InsertKeepsGroups(v, s[1..], res);
      assert ([s[0]] + Insert(v, s[1..]))[1..] == Insert(v, s[1..]);
      assert ([v] + s[1..])[1..] == s[1..];
      assert ([v] + s)[1..] == s;
    } else {
      assert ([v] + s)[1..] == s;
    }
  }

  /** The ranking is stable. */
  lemma {:induction false} RankIsStable(s: seq<VideoSource>)
    ensures StableRanking(Rank(s), s)
  {
    if |s| > 0 {
      RankIsStable(s[1..]);
      forall res
        ensures WithResolution(Rank(s), res) == WithResolution(s, res)
      {
        InsertKeepsGroups(s[0], Rank(s[1..]), res);
        assert ([s[0]] + Rank(s[1..]))[1..] == Rank(s[1..]);
      }
    }
  }

  /** A group holds exactly the variants of `s` with that resolution. */
  lemma {:induction false} GroupMembers(s: seq<VideoSource>, res: int, x: VideoSource)
    ensures x in WithResolution(s, res) <==> x in s && x.resolution == res
  {
    if |s| > 0 {
      GroupMembers(s[1..], res, x);
      assert s == [s[0]] + s[1..];
    }
  }

  /** The group of the first variant's resolution is not empty. */
  lemma FirstGroupNonEmpty(s: seq<VideoSource>)
    requires |s| > 0
    ensures WithResolution(s, s[0].resolution) != []
  {
  }

  /** Two rankings with the same resolution groups are the same sequence. */
  lemma {:induction false} GroupsDetermineRanking(a: seq<VideoSource>, b: seq<VideoSource>)
    requires SortedByResolution(a) && SortedByResolution(b)
    requires forall res :: WithResolution(a, res) == WithResolution(b, res)
    ensures a == b
  {
    if |a| == 0 && |b| > 0 {
      FirstGroupNonEmpty(b);
      assert false;
    } else if |a| > 0 && |b| == 0 {
      FirstGroupNonEmpty(a);
      assert false;
    } else if |a| > 0 && |b| > 0 {
      var m := a[0].resolution;
      var n := b[0].resolution;
      assert WithResolution(a, m)[0] == a[0];
      assert WithResolution(b, n)[0] == b[0];
      GroupMembers(b, m, a[0]);
      GroupMembers(a, n, b[0]);
      assert a[0] in WithResolution(b, m);
      assert b[0] in WithResolution(a, n);
      assert m == n;
      assert a[0] == b[0];
      forall res
        ensures WithResolution(a[1..], res) == WithResolution(b[1..], res)
      {
        var head := if a[0].resolution == res then [a[0]] else [];
        assert WithResolution(a, res) == head + WithResolution(a[1..], res);
        assert WithResolution(b, res) == head + WithResolution(b[1..], res);
        assert (head + WithResolution(a[1..], res))[|head|..] == WithResolution(a[1..], res);
        assert (head + WithResolution(b[1..], res))[|head|..] == WithResolution(b[1..], res);
      }
      GroupsDetermineRanking(a[1..], b[1..]);
      assert a == [a[0]] + a[1..];
      assert b == [b[0]] + b[1..];
    }
  }

  /** There is exactly one stable ranking of a list of variants, and `Rank` computes it. */
  lemma StableRankingIsUnique(out: seq<VideoSource>, input: seq<VideoSource>)
    requires StableRanking(out, input)
    ensures out == Rank(input)
  {
    RankIsStable(input);
    GroupsDetermineRanking(out, Rank(input));
  }

  /** `_links.preferred.href`, read with subscripts. */
  function PreferredUrl(d: Json): (r: Result<Json, Error>)
    ensures r.ToOption() == Hal.LinkHref(d, "preferred")
  {
    var links :- Index(d, "_links");
    var preferred :- Index(links, "preferred");
    Index(preferred, "href")
  }

  /** Every entry of `_embedded['video-sources']`, parsed in order. */
  function ParsedVariants(d: Json, parse: Json -> Result<VideoSource, Error>): (r: Result<seq<VideoSource>, Error>)
    ensures r.Success? ==>
      Hal.Embedded(d, "video-sources").Some? && Iterate(Hal.Embedded(d, "video-sources").value).Success?
    ensures !d.JObj? ==> r == Failure(TypeError)
    ensures d.JObj? && !HasKey(d, "_embedded") ==> r == Failure(KeyError("_embedded"))
    ensures HasKey(d, "_embedded") && Member(d, "_embedded").value.JObj?
            && !HasKey(Member(d, "_embedded").value, "video-sources") ==>
      r == Failure(KeyError("video-sources"))
    ensures HasKey(d, "_embedded") && !Member(d, "_embedded").value.JObj? ==> r == Failure(TypeError)
    ensures Hal.Embedded(d, "video-sources").Some? && Iterate(Hal.Embedded(d, "video-sources").value).Failure? ==>
      r == Failure(TypeError)
    ensures Hal.Embedded(d, "video-sources").Some? && Iterate(Hal.Embedded(d, "video-sources").value).Success? ==>
      r == MapAll(Iterate(Hal.Embedded(d, "video-sources").value).value, parse)
    ensures Hal.EmbeddedArray(d, "video-sources").Some? ==>
      r == MapAll(Hal.EmbeddedArray(d, "video-sources").value, parse)
  {
    var embedded :- Index(d, "_embedded");
    var sources :- Index(embedded, "video-sources");
    var items :- Iterate(sources);
    MapAll(items, parse)
  }

  /**
    `VideoSourceList.__init__`: the preferred URL, then every variant parsed
    and ranked. `parse` stands for `VideoSource.parse_video_resource`.
   */
  function BuildVideoSourceList(d: Json, parse: Json -> Result<VideoSource, Error>): (r: Result<VideoSourceList, Error>)
    ensures r.Success? <==> Hal.LinkHref(d, "preferred").Some? && ParsedVariants(d, parse).Success?
    ensures r.Success? ==> Hal.Embedded(d, "video-sources").Some?
    ensures PreferredUrl(d).Failure? ==> r == Failure(PreferredUrl(d).error)
    ensures PreferredUrl(d).Success? && ParsedVariants(d, parse).Failure? ==>
      r == Failure(ParsedVariants(d, parse).error)
    ensures r.Success? ==> Hal.LinkHref(d, "preferred") == Some(r.value.preferredPlaylistUrl)
    ensures r.Success? ==> StableRanking(r.value.variants, ParsedVariants(d, parse).value)
    ensures r.Success? ==> multiset(r.value.variants) == multiset(ParsedVariants(d, parse).value)
    ensures r.Success? && Hal.EmbeddedArray(d, "video-sources").Some? ==>
      |r.value.variants| == |Hal.EmbeddedArray(d, "video-sources").value|
  {
    var url :- PreferredUrl(d);
    var parsed :- ParsedVariants(d, parse);
    RankIsStable(parsed);
    Success(VideoSourceList(url, Rank(parsed)))
  }

  /** The first variant of a built list has the highest resolution of all parsed variants. */
  lemma TopRankedFirst(d: Json, parse: Json -> Result<VideoSource, Error>, v: VideoSource)
    ensures BuildVideoSourceList(d, parse).Success? && v in ParsedVariants(d, parse).value ==>
      && |BuildVideoSourceList(d, parse).value.variants| > 0
      && BuildVideoSourceList(d, parse).value.variants[0].resolution >= v.resolution
  {
    if BuildVideoSourceList(d, parse).Success? && v in ParsedVariants(d, parse).value {
      var vs := BuildVideoSourceList(d, parse).value.variants;
      assert v in multiset(vs);
      var i :| 0 <= i < |vs| && vs[i] == v;
    }
  }

  /**
    `download_video_source`: the fetched document, or None when the request
    or the JSON decoding fails; it never raises.
   */
  function DownloadVideoSource(url: Json, fetch: Http.Fetcher): (r: Option<Json>)
    ensures r.Some? ==> url.JStr? && fetch(url.s) == r
    ensures url.JStr? && fetch(url.s).Some? ==> r == fetch(url.s)
  {
    Http.Get(fetch, url)
  }

  /**
    `get_preferred_source`: download the preferred URL. A string URL yields
    exactly what the fetcher yields for it; any other value reaches no server.
   */
  function GetPreferredSource(l: VideoSourceList, fetch: Http.Fetcher): (r: Option<Json>)
    ensures l.preferredPlaylistUrl.JStr? ==> r == fetch(l.preferredPlaylistUrl.s)
    ensures !l.preferredPlaylistUrl.JStr? ==> r == None
  {
    DownloadVideoSource(l.preferredPlaylistUrl, fetch)
  }

  /**
    The preferred source is the server's `_links.preferred.href`, whatever
    the variants are and however they rank.
   */
  lemma PreferredIgnoresRanking(d: Json, parse: Json -> Result<VideoSource, Error>, vs: seq<VideoSource>, fetch: Http.Fetcher)
    requires BuildVideoSourceList(d, parse).Success?
    ensures GetPreferredSource(BuildVideoSourceList(d, parse).value.(variants := vs), fetch)
            == Http.Get(fetch, Hal.LinkHref(d, "preferred").value)
  {
  }

  /** `get_variant_source(idx)`: download `variants[idx].stream_url`; Python indices may be negative. */
  function GetVariantSource(l: VideoSourceList, idx: int, fetch: Http.Fetcher): (r: Result<Option<Json>, Error>)
    ensures r.Success? <==> -|l.variants| <= idx < |l.variants|
    ensures r.Failure? ==> r.error == IndexError
    ensures 0 <= idx < |l.variants| ==> r == Success(DownloadVideoSource(l.variants[idx].streamUrl, fetch))
    ensures -|l.variants| <= idx < 0 ==>
      r == Success(DownloadVideoSource(l.variants[|l.variants| + idx].streamUrl, fetch))
  {
    var selected :- PyIndex(l.variants, idx);
    Success(DownloadVideoSource(selected.streamUrl, fetch))
  }

  /** The default selection, index 0, downloads a variant of the highest parsed resolution. */
  lemma DefaultVariantIsBest(d: Json, parse: Json -> Result<VideoSource, Error>, fetch: Http.Fetcher)
    ensures BuildVideoSourceList(d, parse).Success? && |ParsedVariants(d, parse).value| > 0 ==>
      var l := BuildVideoSourceList(d, parse).value;
      && |l.variants| > 0
      && GetVariantSource(l, 0, fetch) == Success(DownloadVideoSource(l.variants[0].streamUrl, fetch))
      && l.variants[0] in ParsedVariants(d, parse).value
      && forall v :: v in ParsedVariants(d, parse).value ==> l.variants[0].resolution >= v.resolution
  {
    if BuildVideoSourceList(d, parse).Success? && |ParsedVariants(d, parse).value| > 0 {
      var l := BuildVideoSourceList(d, parse).value;
      assert l.variants[0] in multiset(l.variants);
      forall v | v in ParsedVariants(d, parse).value
        ensures l.variants[0].resolution >= v.resolution
      {
        TopRankedFirst(d, parse, v);
      }
    }
  }
}

=== FILE: wrappers.dfy ===
/** Failure-compatible Option and Result, usable with `:-`. */
module Wrappers {

  /** An optional value; Python's `None` where a value may be absent. */
  datatype Option<+T> = None | Some(value: T) {

    predicate IsFailure() {
      None?
    }

    function PropagateFailure<U>(): Option<U>
      requires None?
    {
      None
    }

    function Extract(): T
      requires Some?
    {
      value
    }

    /** The value, or `default` when there is none. */
    function GetOr(default: T): T {
      match this
      case Some(v) => v
      case None => default
    }
  }

  /** The outcome of a computation that either returns or raises. */
  datatype Result<+T, +E> = Success(value: T) | Failure(error: E) {

    predicate IsFailure() {
      Failure?
    }

    function PropagateFailure<U>(): Result<U, E>
      requires Failure?
    {
      Failure(error)
    }

    function Extract(): T
      requires Success?
    {
      value
    }

    /** Forgets which exception was raised. */
    function ToOption(): Option<T> {
      match this
      case Success(v) => Some(v)
      case Failure(_) => None
    }
  }
}
